=== FILE: README.md ===
# cs162-personal core, modelled in Dafny

This project models the logic at the centre of four small C programs and
proves properties about it:

- **Work queue** (`hw2/wq.c`, module `WorkQueue`). The server keeps a FIFO of
  accepted client socket numbers with a separate `size` counter.
- **HTTP server** (`hw2/httpserver.c`, modules `Http`, `FileServer` and `Proxy`).
  - `super_strcat`.
  - The decision tree of `handle_files_request`, which covers a regular file, a
    directory's `index.html`, the generated directory listing, 404, and the
    allocation and open failures.
  - The 1024-byte send loop.
  - The `host[:port]` split of the `--proxy` argument.
  - The early outcomes of `handle_proxy_request`: exit on socket or DNS failure,
    502 when `connect` fails.
- **First-fit allocator** (`hw3/mm_alloc.c` and `hw3/mm_alloc.h`, modules
  `MemBlock` and `Alloc`).
  - The heap is a run of blocks laid end to end from a base address. Each block
    is a 40-byte header, its payload, then slack.
  - `prev`/`next` are kept as explicit addresses, so the list invariant
    `WellLinked` can be stated.
  - Modelled operations: `push_mem_block`, `split_mem_block`, reuse without a
    split, and `mm_malloc`.
- **Shell** (`hw1/shell.c`, module `Shell`).
  - The built-in lookup.
  - The scan for a single `>` or `<` redirection.
  - The child's argc/argv.
  - The `strtok`-based `$PATH` search.
  - The handling of one input line.
- **Word count** (`hw0/wc.c`, module `WordCount`). The two-state scanner that
  counts lines, words and bytes, and the argument-count error.

Module `Common` holds the shared vocabulary:

- `Option`, which stands for a pointer that may be NULL.
- `Byte`.
- Concatenation of a list of sequences.
- Decimal rendering.

Every operation is a pure function or a method over immutable values. Where the
C code touches the outside world, that input becomes a parameter:

- Which files exist (`present`, and the `FileSystem` map).
- Whether `malloc`, `open`, `opendir`, `socket`, DNS resolution, `connect` or
  `sbrk` succeed.
- The MIME lookup.
- The bytes a file or standard input delivers.

Behaviour of the code worth noting:

- A file that `stat` finds but `open` cannot open is answered with status 200
  and the body `<h1>Unable to open file.</h1>`. Its Content-Length is the body
  length plus one, because `super_strcat` counts the terminating NUL
  (`FileServer.ServeFile`, `FileServer.HandleFiles`).
- Unresolvable proxy hosts and socket failures end the whole process
  (`exit(ENXIO)` and `exit(errno)`) instead of producing a response
  (`Proxy.HandleProxy`).
- The error responses for a missing resource, for something that is neither a
  file nor a directory, and for an unopenable directory carry only a
  Content-Type header.

## Model

| member | source | states |
|---|---|---|
| WorkQueue.Init | hw2/wq.c:6-22 | initialisation leaves the queue empty with size 0, so it satisfies the size/contents invariant |
| WorkQueue.Push | hw2/wq.c:45-60 | the fd is appended at the tail, earlier items keep their order, size grows by one, the invariant is preserved |
| WorkQueue.Pop | hw2/wq.c:26-42 | on an empty queue the caller waits and nothing changes; otherwise the head is returned, the rest keep their order, size drops by one, and head followed by rest is the old contents |
| WorkQueue.RunConserves | hw2/wq.c:26-60 | over any trace of pushes and pops, the fds handed out followed by those still queued equal the initial contents followed by everything pushed, in push order; the invariant holds throughout |
| WorkQueue.PushAll | hw2/wq.c:45-60 | pushing a list appends exactly that list and grows size by its length |
| WorkQueue.PopNTakesPrefix | hw2/wq.c:26-42 | n pops from a queue with at least n items hand out its first n items in order and leave the remainder |
| WorkQueue.PushThenPopFifo | hw2/wq.c:26-60 | pushing x1..xn on a fresh queue and popping n times returns x1..xn in order and leaves a valid empty queue |
| WorkQueue.PopNValid | hw2/wq.c:32-35 | any number of pops keeps the counter equal to the number of items |
| Common.ConcatLength | hw2/httpserver.c:43-52 | the concatenation is exactly as long as the sum of its parts' lengths, the sum the first pass of super_strcat computes |
| Http.SuperStrcat | hw2/httpserver.c:40-71 | the result is the in-order concatenation of all arguments, and the reported length is the total string length plus one, i.e. the result's length with its NUL |
| FileServer.Resolve | hw2/httpserver.c:96-112 | "/" names the document root itself; any other path is the root followed verbatim by the request path |
| FileServer.ServeFile | hw2/httpserver.c:117-155 | an openable regular file gives 200 with its MIME type, its exact size and its bytes; anything else gives 200 text/html "Unable to open file" with length body+1 |
| FileServer.HandleFiles | hw2/httpserver.c:85-268 | one clause per branch (allocation failure, regular file, index page, listing); a file or an index page that exists but does not open gives 200 text/html "Unable to open file" with Content-Length body+1; 404 exactly when the name is missing (body names the file), is neither file nor directory (body names the resource), or is an index-less directory that cannot be opened (body is the opendir note); status is always 200 or 404 |
| FileServer.VisibleMembership | hw2/httpserver.c:216-225 | an entry appears in the listing exactly when it is in the directory and is not "." or ".." |
| FileServer.VisibleAppend | hw2/httpserver.c:216-225 | filtering keeps directory order: the entries of two batches are listed in batch order |
| FileServer.LinksAppend | hw2/httpserver.c:219-223 | the links of two lists of names are the first list's links followed by the second's |
| FileServer.ListingCons | hw2/httpserver.c:206-229 | prepending an entry prepends its link, or nothing for "." and ".."; the parent link stays last |
| FileServer.RenderListing | hw2/httpserver.c:207-229 | the readdir loop produces the listing (a link per visible entry, then the parent link) and the output ends with the parent link |
| FileServer.SendFileChunks | hw2/httpserver.c:134-138 | the client receives exactly the file's bytes in order, in ceil(size/1024) sends |
| Proxy.FindChar | hw2/httpserver.c:502-503 | strchr finds nothing exactly when the character is absent; otherwise it returns its first occurrence |
| Proxy.ParseTarget | hw2/httpserver.c:502-510 | with no colon, the host is the whole argument and the port is 80; otherwise the host is the colon-free text before the first colon and the port is atoi of the rest |
| Proxy.TargetRoundTrip | hw2/httpserver.c:502-510 | splitting host ":" decimal(port) gives back that host and port for every colon-free host |
| Proxy.AtoiOfDecimal | hw2/httpserver.c:506 | atoi reads a decimal rendering back as the number |
| Proxy.DigitRun | hw2/httpserver.c:506 | atoi's digit run is the longest prefix of decimal digits |
| Proxy.HandleProxy | hw2/httpserver.c:306-340 | a failed socket exits with errno; an unresolved host exits with ENXIO; a failed connect, and only that, is answered with 502 text/html and the Bad Gateway body |
| MemBlock.SpanAppend | hw3/mm_alloc.h:12-20 | the bytes of two adjacent runs of blocks add up |
| MemBlock.BlockLayout | hw3/mm_alloc.h:12-20 | the layout has no gaps: a block's payload plus slack ends exactly at the next header or the heap top, and addresses strictly increase |
| Alloc.PrefixAddr | hw3/mm_alloc.c:60 | block addresses depend only on the footprints of the blocks before them |
| Alloc.PushBlock | hw3/mm_alloc.c:23-51 | NULL exactly when the heap cannot grow; otherwise a used block of the requested size with no slack is placed at the old heap top, linked after the old last block; the heap grows by header plus size; other blocks keep their payload; the list invariant is preserved |
| Alloc.PushBlockAsWritten | hw3/mm_alloc.c:25-27 | as written, push always returns a block, even when the heap did not grow |
| Alloc.PushIgnoresGrowthFailure | hw3/mm_alloc.c:25-27 | on a failed growth the code as written still adds a block, where the intended result is NULL |
| Alloc.SplitAsWritten | hw3/mm_alloc.c:57-73 | the split as written adds exactly one block |
| Alloc.Split | hw3/mm_alloc.c:57-73 | the split block keeps n bytes with no slack and is used; a free block of leftover minus one header follows it at payload+n; later blocks keep their payload, and every block after the old successor is unchanged; total bytes are unchanged; the list invariant is preserved |
| Alloc.SplitBlockAt | hw3/mm_alloc.c:57-73 | block k of the split heap: earlier blocks unchanged, then the chosen block keeping its prev and pointing at the new block, the free block of leftover minus a header linked between them, and later blocks one index on |
| Alloc.SplitAddr | hw3/mm_alloc.c:58-61 | after a split, blocks before it keep their address, the new block sits n bytes into the old payload, and later blocks keep their address |
| Alloc.SplitAsWrittenBreaksLinks | hw3/mm_alloc.c:64-70 | the split as written leaves the old successor's prev at the split block, so every split breaks the list invariant |
| Alloc.SplitAsWrittenExample | hw3/mm_alloc.c:57-73 | a concrete well-linked two-block heap that mm_malloc(10) splits into a broken list as written and a well-linked one when corrected |
| Alloc.Absorb | hw3/mm_alloc.c:107-113 | reuse without a split: the block becomes used with size n and the leftover as slack; no other block, address or byte count changes; the list invariant is preserved |
| Alloc.FirstFit | hw3/mm_alloc.c:97-117 | the scan returns the first unused block before the last that can hold n, or reports that there is none |
| Alloc.MmMalloc | hw3/mm_alloc.c:83-133 | `mm_malloc` with both corrections from the Findings table (it uses the corrected `Split` and `PushBlock`, not the code as written): NULL exactly for size 0, or when nothing fits and the heap cannot grow; otherwise the pointer is the chosen block's payload, and the block is used with the requested size; the first fit is reused (split when the leftover exceeds a header, leaving every block after the old successor unchanged; absorbed otherwise) with bytes conserved and earlier blocks untouched, or else a block is appended at the old top; the list invariant is preserved |
| Shell.LookupFrom | hw1/shell.c:107-112 | the scan returns the first matching table index at or after the start, and -1 exactly when no later entry matches |
| Shell.Lookup | hw1/shell.c:107-112 | the index of the first built-in with that name, or -1 exactly when the token is NULL or names no built-in |
| Shell.LookupBuiltins | hw1/shell.c:49-54 | "?", "exit", "pwd" and "cd" are found at positions 0 to 3 of the four-entry table |
| Shell.ScanRedirectFrom | hw1/shell.c:180-198 | no redirection exactly when no token is ">" or "<"; otherwise the first such token, its kind, and the following token as the file name if there is one |
| Shell.ChildArgc | hw1/shell.c:254-262 | argc counts every token without a redirection, otherwise the tokens before the operator |
| Shell.ChildArgv | hw1/shell.c:264-270 | argv is the first argc tokens then NULL, and holds no redirection operator |
| Shell.FieldEnd | hw1/shell.c:210 | the end of a $PATH field is the first colon or the end of the string |
| Shell.PathDirs | hw1/shell.c:210-228 | strtok yields non-empty, colon-free fields |
| Shell.PathDirsAppend | hw1/shell.c:210-228 | for every a and b, the directories of a ":" b are those of a followed by those of b, so leading, trailing and doubled colons yield no directory |
| Shell.PathDirsColon | hw1/shell.c:210-228 | the directories of a followed by a colon-led suffix t are those of a followed by those of t without its colon |
| Shell.FieldEndColon | hw1/shell.c:210 | appending a colon-led suffix does not move the end of the first field |
| Shell.PathDirsSingle | hw1/shell.c:210-213 | a non-empty colon-free $PATH is exactly one directory |
| Shell.PathDirsEmpty | hw1/shell.c:210-213 | strtok yields no directory exactly when $PATH consists only of colons, or is empty |
| Shell.PathDirsSkipsEmpty | hw1/shell.c:210-227 | a leading or trailing colon adds no directory |
| Shell.PathDirsJoin | hw1/shell.c:210-228 | splitting a $PATH joined from non-empty colon-free directories gives back exactly those directories in order |
| Shell.Candidates | hw1/shell.c:215-221 | one candidate per directory, dir "/" cmd, in $PATH order |
| Shell.FirstExisting | hw1/shell.c:213-228 | the first candidate that exists, with none before it, or none when no candidate exists |
| Shell.ResolveProgram | hw1/shell.c:201-235 | a name with a slash is used as given; otherwise the first existing dir/cmd in $PATH order, or the bare name when no candidate exists |
| Shell.RunExternal | hw1/shell.c:233-270 | "No such file", naming the command as typed, exactly when the resolved program does not exist; otherwise a spawn of it with the scanned redirection and the derived argv |
| Shell.DispatchLineAsWritten | hw1/shell.c:160-209 | as written, the line crashes exactly when it is empty (strchr on NULL) or names no built-in while PATH is unset (strlen on NULL); a built-in runs exactly when the first token names one, and it is the table entry with that name; otherwise the external-command path with the PATH value |
| Shell.DispatchLine | hw1/shell.c:158-326 | an empty line does nothing; a built-in runs exactly when the first token names one; otherwise the external-command path, with an unset PATH searched as naming no directory; never a crash; identical to the code as written on every non-empty line while PATH is set |
| Shell.EmptyLineDiffers | hw1/shell.c:163-207 | the empty line is where the code as written and the intended behaviour part |
| Shell.UnsetPathDiffers | hw1/shell.c:202-205 | with PATH unset, every non-built-in line crashes as written, while the corrected dispatch runs the command as given exactly when that file exists and otherwise reports "No such file" |
| WordCount.ScanInvariant | hw0/wc.c:17-32 | after any prefix, chars is its length, lines its newline count, the in-word flag says it ends in a non-separator, and words plus that flag is its number of maximal non-separator runs |
| WordCount.Wc | hw0/wc.c:15-36 | lines are the newline bytes, words the maximal runs of non-separator bytes, chars all bytes |
| WordCount.WordRunsAppend | hw0/wc.c:20-30 | after a separator, word runs of two pieces add up |
| WordCount.SeparatorSplitsWords | hw0/wc.c:20-27 | any separator (NUL included) splits words: the words of a+sep+b are those of a plus those of b |
| WordCount.WcMain | hw0/wc.c:7-74 | status 1 and no counts exactly when more than one argument is given; otherwise status 0 with the counts of standard input or of the file, both through the corrected loop Wc (the file loop as written is WcFileAsWritten) |
| WordCount.EofPosition | hw0/wc.c:43-45 | the file loop as written stops at the first 0xFF byte, or at the end of the file |
| WordCount.WcFileAsWritten | hw0/wc.c:38-64 | as written, the file branch stops at the first 0xFF byte (or the end) and reports the lines, words and characters of the bytes before it |
| WordCount.FileBranchStopsAtFF | hw0/wc.c:43-45 | the file branch as written agrees with the intended count exactly on files without 0xFF, and undercounts otherwise; for "a" 0xFF "b" it counts (0,1,1) instead of (0,1,3) |

## Left out

- Threads, the mutex and the condition variable of the work queue. Each queue
  operation is one atomic step. `wq_pop` as written waits on the condition
  variable even when items are queued, so it can miss a signal that was sent
  before it waited. That is a concurrency property this sequential model
  cannot express.
- WorkQueue.Init: models the documented contract. After the call, the caller's
  queue is empty. The C function overwrites its local pointer with a fresh
  allocation and leaves the caller's queue untouched. That queue is a global,
  so it is zero-initialised anyway, and the observable state is the same.
- The thread pool, `serve_forever`, signal handling and the rest of `main`'s
  option parsing are not modelled. They are sockets, threads and process
  control. The `--proxy` split is the one piece of `main` that is modelled.
- HTTP request parsing, header framing and the MIME table belong to the HTTP
  library, and that library is not part of this model. The MIME lookup is a
  parameter, and a response is an abstract status/headers/body value.
- The proxy relay itself (task 3 in the source) is empty in the code, so the
  successful-connect case is modelled only as "no response written". DNS
  resolution, `socket` and `connect` are inputs.
- Proxy.HandleProxy: the upstream socket from hw2/httpserver.c:308 is never
  closed. Neither the 502 return nor the fall-through after a successful
  `connect` closes it, and the worker loop closes only the client socket
  (hw2/httpserver.c:361-363). Each proxied request therefore leaks one
  descriptor. Once the descriptor limit is reached, `socket` fails and the
  whole server exits through the socket-failure branch. The model takes
  `socketOk` as a fresh input on every call and does not track the
  descriptor table, so it cannot show this drift from 502 to process exit.
- FileServer.HandleFiles: an `index.html` that is not a regular file (a
  directory, or any other node `stat` finds) is treated like an index that
  cannot be opened. The source calls `open` on whatever `stat` found, and that
  `open` may succeed: on Linux, `open` of a directory succeeds and the
  following `read` fails, and a FIFO or device opens too. The model does not
  track these I/O details.
- FileServer.SendFileChunks: a short `read` before end of file is not
  modelled. Every read returns a full 1024-byte chunk until the last.
- Http.SuperStrcat: the `malloc` of the result is not checked in the source, and a failure would crash in `strcpy`. The model always succeeds.
- FileServer.HandleFiles: the `malloc` of the index path is not checked either, so a failure there would crash. The model only covers the checked `malloc` of the resolved name (`allocOk`).
- FileServer.SendFileChunks: a `read` error is not modelled. `read_len` is a `size_t`, so the error value -1 becomes SIZE_MAX and is not 0. The loop would keep sending, and it never ends. The model assumes every read succeeds.
- Proxy.ParseTarget: `atoi` is modelled over unbounded integers. A port
  string whose value overflows `int` is undefined behaviour in C, and the
  model simply returns the large value.
- Alloc.SplitAsWritten: the model covers the split only where `mm_malloc`
  calls it:
  - The split block is not the last block, because the scan stops before
    `last_block`.
  - The leftover exceeds a header. Below that, the C subtraction of `size_t`
    values would wrap around.

  `combine_mem_block`, `mm_free` and `mm_realloc` are not modelled: their
  bodies are empty in the source.
- Alloc.MmMalloc: is stated for `mm_malloc` with the two corrections of the
  Findings table. The code as written reports no growth failure
  (`PushIgnoresGrowthFailure`) and breaks the list invariant on a split
  (`SplitAsWrittenBreaksLinks`), so its NULL and invariant clauses do not
  hold for it. The model also assumes the allocator owns the data segment from its base,
  so the heap top is the end of the last block. Allocation sizes are
  unbounded, with no `size_t` wrap-around. Alignment is not modelled.
- Shell.ResolveProgram: the `malloc`s of the `$PATH` copy and of each candidate are not checked in the source. A failure would crash in `strcpy`, and this is not modelled.
- Shell: the tokenizer is not part of this model. A line is its sequence of
  tokens.
- Shell: running built-ins (`cd`, `pwd`, `exit`, `?`), `fork`, `execv`,
  process groups, terminal control and signals are left out.
- Shell.RunExternal: the redirection scan opens its file while it scans
  (hw1/shell.c:186 with `O_CREAT|O_TRUNC`, hw1/shell.c:194). This happens
  before the program is resolved and before `getenv("PATH")` is read. So
  `nosuch > out` creates or truncates `out` and then reports "No such file",
  and an unset-PATH crash also comes after the open. The `NoSuchFile` and
  `Crash` outcomes do not record that side effect on the filesystem.
- Shell: the `!outfd` / `!infd` tests after a failed `open` (which returns
  -1, so the test is false) are file-descriptor plumbing and are left out.
- WordCount.Wc: the counters are `int` in the source and would overflow past INT_MAX (over 2 GiB of input). The model's counts are unbounded naturals.
- WordCount: the debug lines the file branch prints for each byte are output
  noise and are not modelled. The result is the final triple and the exit
  status. A file that cannot be opened (`fopen` returning NULL) is not
  modelled either.

## Findings

| source | as written | input that shows it | evidently intended | confidence | as-written member | corrected member |
|---|---|---|---|---|---|---|
| hw3/mm_alloc.c:64-70 | `split_mem_block` sets the new block's `next` to the old successor but never sets that successor's `prev` to the new block | heap at base 0 with a free 100-byte block then a used 8-byte block; `mm_malloc(10)` splits the first, and the second's `prev` still names address 0 instead of 50 | the successor's `prev` points at the new free block, keeping the list doubly linked | high but latent: while `mm_free` is empty no block is ever free, so no split happens, and `prev` is never read; not executed | Alloc.SplitAsWrittenBreaksLinks | Alloc.Split |
| hw3/mm_alloc.c:27 | the growth check is `sbrk(...) < 0` on a pointer; `sbrk` reports failure with `(void *) -1`, which is never below zero as a pointer | any `mm_malloc(n)` that needs a new block while `sbrk` fails: a header is written past the heap top and a pointer is returned | return NULL when the heap cannot grow | high; not executed | Alloc.PushIgnoresGrowthFailure | Alloc.PushBlock |
| hw0/wc.c:43-45 | the result of `getc` is stored in a `char` before being compared with `EOF`; with a signed `char`, byte 0xFF compares equal to `EOF` | a file holding "a", 0xFF, "b" is counted as 0 lines, 1 word, 1 byte instead of 0, 1, 3 | keep `getc`'s result in an `int`, so the loop stops only at end of file | high on signed-char targets; not executed | WordCount.FileBranchStopsAtFF | WordCount.Wc |
| hw1/shell.c:163-207 | for an empty line, the first token is NULL; `lookup` rejects it, and the NULL name is then passed to `strchr` | an empty input line (just a newline), assuming the tokenizer returns NULL for a missing token | ignore an empty line | medium (tokenizer not part of this model); not executed | Shell.EmptyLineDiffers | Shell.DispatchLine |
| hw1/shell.c:202-205 | `getenv("PATH")` is passed to `strlen` and `strcpy` without a NULL check | run the shell with `PATH` unset and enter `ls`: `strlen(NULL)` | with `PATH` unset, search no directory and try the command as given | high; not executed | Shell.UnsetPathDiffers | Shell.DispatchLine |

=== FILE: alloc.dfy ===
/**
 The first-fit allocator of hw3/mm_alloc.c over the block layout of
 module MemBlock. Growing the heap (`sbrk`) either succeeds or fails; the
 outcome is the `grows` input. `mm_free`, `mm_realloc` and
 `combine_mem_block` are empty in the source and are not modelled.
 */
module Alloc {
  import opened Common
  import opened MemBlock

  /** Two blocks agree on everything but their links. */
  predicate SamePayload(a: Block, b: Block)
  {
    a.size == b.size && a.extra == b.extra && a.used == b.used
  }

  /** Addresses depend only on footprints: two heaps with the same base
      whose first `j` blocks have the same footprints agree on `Addr(_, j)`. */
  lemma PrefixAddr(h: Heap, g: Heap, j: nat)
    requires h.base == g.base
    requires j <= |h.blocks| && j <= |g.blocks|
    requires forall k :: 0 <= k < j ==> Footprint(h.blocks[k]) == Footprint(g.blocks[k])
    ensures Addr(h, j) == Addr(g, j)
  {
    SpanSameFootprints(h.blocks[..j], g.blocks[..j]);
  }

  // ---------------------------------------------------------------------
  // push_mem_block

  /** `push_mem_block` (corrected growth check): grow the heap by a header
      plus `n` bytes and put a new used block of size `n` there, linked
      after the old last block; if the heap cannot grow, nothing changes
      and the result is NULL. */
  function PushBlock(h: Heap, n: nat, grows: bool): (r: Option<Heap>)
    ensures r.None? <==> !grows
    ensures r.Some? ==> r.value.base == h.base && |r.value.blocks| == |h.blocks| + 1
    ensures r.Some? ==> var nb := r.value.blocks[|h.blocks|];
      nb.size == n && nb.extra == 0 && nb.used && nb.next == None
    ensures r.Some? ==> Addr(r.value, |h.blocks|) == Top(h)
    ensures r.Some? ==> Span(r.value.blocks) == Span(h.blocks) + HEADER + n
    ensures r.Some? ==> forall k :: 0 <= k < |h.blocks| ==> SamePayload(r.value.blocks[k], h.blocks[k])
    ensures r.Some? && |h.blocks| > 0 ==> r.value.blocks[..|h.blocks| - 1] == h.blocks[..|h.blocks| - 1]
    ensures r.Some? && |h.blocks| == 0 ==> r.value.blocks[0].prev == None
    ensures r.Some? && WellLinked(h) ==> WellLinked(r.value)
  {
    if !grows then None
    else
      var bs := h.blocks;
      var nb := Block(n, 0, true, if |bs| == 0 then None else Some(Addr(h, |bs| - 1)), None);
      var bs' := if |bs| == 0 then [nb] else bs[|bs| - 1 := bs[|bs| - 1].(next := Some(Top(h)))] + [nb];
      var h' := Heap(h.base, bs');
      PushFacts(h, nb, h');
      Some(h')
  }

  lemma PushFacts(h: Heap, nb: Block, h': Heap)
    requires h'.base == h.base
    requires nb.prev == (if |h.blocks| == 0 then None else Some(Addr(h, |h.blocks| - 1))) && nb.next == None
    requires h'.blocks == if |h.blocks| == 0 then [nb]
      else h.blocks[|h.blocks| - 1 := h.blocks[|h.blocks| - 1].(next := Some(Top(h)))] + [nb]
    ensures Addr(h', |h.blocks|) == Top(h)
    ensures Span(h'.blocks) == Span(h.blocks) + Footprint(nb)
    ensures WellLinked(h) ==> WellLinked(h')
  {
    PushBytes(h, nb, h');
    forall k | 0 <= k < |h'.blocks| && WellLinked(h)
      ensures LinkedAt(h', k)
    {
      PushLinkedAt(h, nb, h', k);
    }
  }

  /** The pushed block starts at the old heap top and adds its footprint. */
  lemma PushBytes(h: Heap, nb: Block, h': Heap)
    requires h'.base == h.base
    requires h'.blocks == if |h.blocks| == 0 then [nb]
      else h.blocks[|h.blocks| - 1 := h.blocks[|h.blocks| - 1].(next := Some(Top(h)))] + [nb]
    ensures Addr(h', |h.blocks|) == Top(h)
    ensures Span(h'.blocks) == Span(h.blocks) + Footprint(nb)
  {
    var m := |h.blocks|;
    assert |h'.blocks| == m + 1 && h'.blocks[m] == nb;
    assert forall k :: 0 <= k < m ==> Footprint(h.blocks[k]) == Footprint(h'.blocks[k]);
    assert h.blocks[..m] == h.blocks;
    PrefixAddr(h, h', m);
    assert h'.blocks[..m + 1][..m] == h'.blocks[..m];
    assert h'.blocks[..m + 1] == h'.blocks;
  }

  lemma PushLinkedAt(h: Heap, nb: Block, h': Heap, k: nat)
    requires h'.base == h.base
    requires nb.prev == (if |h.blocks| == 0 then None else Some(Addr(h, |h.blocks| - 1))) && nb.next == None
    requires h'.blocks == if |h.blocks| == 0 then [nb]
      else h.blocks[|h.blocks| - 1 := h.blocks[|h.blocks| - 1].(next := Some(Top(h)))] + [nb]
    requires WellLinked(h)
    requires k <= |h.blocks|
    ensures LinkedAt(h', k)
  {
    var m := |h.blocks|;
    PushBytes(h, nb, h');
    if k > 0 { PrefixAddr(h, h', k - 1); }
    if k + 1 < m { PrefixAddr(h, h', k + 1); }
    if k < m {
      assert h'.blocks[k] == (if k + 1 == m then h.blocks[k].(next := Some(Top(h))) else h.blocks[k]);
      assert LinkedAt(h, k);
      if k + 1 == m {
        assert Top(h) == Addr(h', k + 1);
      }
    } else {
      assert h'.blocks[k] == nb;
    }
  }

  /** `push_mem_block` as written: the growth check `sbrk(...) < 0` compares
      a pointer against zero, which is never true for the `(void *) -1`
      that `sbrk` returns on failure, so a block is set up even when the
      heap did not grow. */
  function PushBlockAsWritten(h: Heap, n: nat, grows: bool): (r: Option<Heap>)
    ensures r.Some?
  {
    PushBlock(h, n, true)
  }

  /** On a failed growth the code as written still hands back a block,
      where the intended behaviour is to return NULL. */
  lemma PushIgnoresGrowthFailure(h: Heap, n: nat)
    ensures PushBlockAsWritten(h, n, false).Some?
    ensures |PushBlockAsWritten(h, n, false).value.blocks| == |h.blocks| + 1
    ensures PushBlock(h, n, false).None?
  {
  }

  // ---------------------------------------------------------------------
  // split_mem_block

  /** Bytes of a block's capacity left once `n` are handed out. */
  function Leftover(b: Block, n: nat): nat
    requires Capacity(b) >= n
  {
    Capacity(b) - n
  }

  /** The split as the C code performs it: block `i` keeps `n` bytes and is
      marked used, and a free block for the rest of its capacity (minus a
      header) is inserted after it. Only `split_mem_block`'s callers'
      situation is modelled: `i` is not the last block (the function does not
      update `last_block`) and the leftover exceeds a header (otherwise the
      new size would underflow). */
  function SplitAsWritten(h: Heap, i: nat, n: nat): (r: Heap)
    requires i + 1 < |h.blocks|
    requires Capacity(h.blocks[i]) >= n && Leftover(h.blocks[i], n) > HEADER
    ensures r.base == h.base && |r.blocks| == |h.blocks| + 1
  {
    var b := h.blocks[i];
    var a := Addr(h, i);
    var leftover := Leftover(b, n);
    var chosen := Block(n, 0, true, b.prev, Some(a + HEADER + n));
    var spare := Block(leftover - HEADER, 0, false, Some(a), b.next);
    Heap(h.base, h.blocks[..i] + [chosen, spare] + h.blocks[i + 1..])
  }

  /** The split heap with the old successor's `prev` pointed at the new
      free block. */
  function Relinked(h: Heap, i: nat, n: nat): Heap
    requires i + 1 < |h.blocks|
    requires Capacity(h.blocks[i]) >= n && Leftover(h.blocks[i], n) > HEADER
  {
    var w := SplitAsWritten(h, i, n);
    Heap(w.base, w.blocks[i + 2 := w.blocks[i + 2].(prev := Some(Addr(h, i) + HEADER + n))])
  }

  /** The corrected split: as above, and the old successor's `prev` is
      pointed at the new free block. */
  function Split(h: Heap, i: nat, n: nat): (r: Heap)
    requires i + 1 < |h.blocks|
    requires Capacity(h.blocks[i]) >= n && Leftover(h.blocks[i], n) > HEADER
    ensures r.base == h.base && |r.blocks| == |h.blocks| + 1
    ensures r.blocks[..i] == h.blocks[..i]
    ensures r.blocks[i].used && r.blocks[i].size == n && r.blocks[i].extra == 0
    ensures !r.blocks[i + 1].used && r.blocks[i + 1].extra == 0
    ensures r.blocks[i + 1].size == Leftover(h.blocks[i], n) - HEADER
    ensures forall k :: i + 1 <= k < |h.blocks| ==> SamePayload(r.blocks[k + 1], h.blocks[k])
    // Past the old successor, whose `prev` is relinked, blocks are unchanged.
    ensures forall k :: i + 2 <= k < |h.blocks| ==> r.blocks[k + 1] == h.blocks[k]
    ensures Addr(r, i + 1) == PayloadAddr(h, i) + n
    ensures Span(r.blocks) == Span(h.blocks)
    ensures WellLinked(h) ==> WellLinked(r)
  {
    SplitShape(h, i, n);
    SplitBytes(h, i, n);
    SplitLinks(h, i, n);
    Relinked(h, i, n)
  }

  /** Block `k` of the split heap (as written): earlier blocks unchanged,
      then the chosen block, the new free block, and the later blocks one
      index further on. */
  lemma SplitBlockAt(h: Heap, i: nat, n: nat, k: nat)
    requires i + 1 < |h.blocks|
    requires Capacity(h.blocks[i]) >= n && Leftover(h.blocks[i], n) > HEADER
    requires k < |h.blocks| + 1
    ensures k < i ==> SplitAsWritten(h, i, n).blocks[k] == h.blocks[k]
    ensures k == i ==>
      SplitAsWritten(h, i, n).blocks[k] == Block(n, 0, true, h.blocks[i].prev, Some(Addr(h, i) + HEADER + n))
    ensures k == i + 1 ==>
      SplitAsWritten(h, i, n).blocks[k] == Block(Leftover(h.blocks[i], n) - HEADER, 0, false, Some(Addr(h, i)), h.blocks[i].next)
    ensures k >= i + 2 ==> SplitAsWritten(h, i, n).blocks[k] == h.blocks[k - 1]
  {
    var w := SplitAsWritten(h, i, n);
    var pre := h.blocks[..i];
    var pair := [w.blocks[i], w.blocks[i + 1]];
    assert w.blocks == (pre + pair) + h.blocks[i + 1..];
    if k >= i + 2 {
      assert w.blocks[k] == h.blocks[i + 1..][k - (i + 2)];
    }
  }

  /** The shape and payloads of the corrected split. */
  lemma SplitShape(h: Heap, i: nat, n: nat)
    requires i + 1 < |h.blocks|
    requires Capacity(h.blocks[i]) >= n && Leftover(h.blocks[i], n) > HEADER
    ensures var r := Relinked(h, i, n);
      && r.blocks[..i] == h.blocks[..i]
      && r.blocks[i].used && r.blocks[i].size == n && r.blocks[i].extra == 0
      && !r.blocks[i + 1].used && r.blocks[i + 1].extra == 0
      && r.blocks[i + 1].size == Leftover(h.blocks[i], n) - HEADER
      && (forall k :: i + 1 <= k < |h.blocks| ==> SamePayload(r.blocks[k + 1], h.blocks[k]))
      && forall k :: i + 2 <= k < |h.blocks| ==> r.blocks[k + 1] == h.blocks[k]
  {
    var r := Relinked(h, i, n);
    SplitBlockAt(h, i, n, i);
    SplitBlockAt(h, i, n, i + 1);
    forall k | 0 <= k < i
      ensures r.blocks[k] == h.blocks[k]
    {
      SplitBlockAt(h, i, n, k);
    }
    forall k | i + 1 <= k < |h.blocks|
      ensures SamePayload(r.blocks[k + 1], h.blocks[k])
      ensures k >= i + 2 ==> r.blocks[k + 1] == h.blocks[k]
    {
      SplitBlockAt(h, i, n, k + 1);
    }
  }

  /** The corrected split conserves bytes and puts the free block `n` bytes
      into the old payload. */
  lemma SplitBytes(h: Heap, i: nat, n: nat)
    requires i + 1 < |h.blocks|
    requires Capacity(h.blocks[i]) >= n && Leftover(h.blocks[i], n) > HEADER
    ensures Addr(Relinked(h, i, n), i + 1) == PayloadAddr(h, i) + n
    ensures Span(Relinked(h, i, n).blocks) == Span(h.blocks)
  {
    SplitAddrFixed(h, i, n, i + 1);
    SplitSpan(h, i, n);
  }

  lemma SplitSpan(h: Heap, i: nat, n: nat)
    requires i + 1 < |h.blocks|
    requires Capacity(h.blocks[i]) >= n && Leftover(h.blocks[i], n) > HEADER
    ensures Span(Relinked(h, i, n).blocks) == Span(h.blocks)
  {
    var r := Relinked(h, i, n);
    var m := |h.blocks| + 1;
    SplitAddrFixed(h, i, n, m);
    assert Addr(r, m) == h.base + Span(r.blocks[..m]);
    assert r.blocks[..m] == r.blocks;
    assert Addr(h, m - 1) == h.base + Span(h.blocks[..m - 1]);
    assert h.blocks[..m - 1] == h.blocks;
  }

  /** Where each block of the split heap starts: blocks before the split
      keep their address, the new free block starts `n` bytes into the old
      payload, and later blocks keep their address (one index further on). */
  lemma SplitAddr(h: Heap, i: nat, n: nat, k: nat)
    requires i + 1 < |h.blocks|
    requires Capacity(h.blocks[i]) >= n && Leftover(h.blocks[i], n) > HEADER
    requires k <= |h.blocks| + 1
    ensures k <= i ==> Addr(SplitAsWritten(h, i, n), k) == Addr(h, k)
    ensures k == i + 1 ==> Addr(SplitAsWritten(h, i, n), k) == Addr(h, i) + HEADER + n
    ensures k >= i + 2 ==> Addr(SplitAsWritten(h, i, n), k) == Addr(h, k - 1)
  {
    var w := SplitAsWritten(h, i, n);
    var pre := h.blocks[..i];
    var chosen := w.blocks[i];
    assert w.blocks == pre + [chosen, w.blocks[i + 1]] + h.blocks[i + 1..];
    if k <= i {
      assert w.blocks[..k] == h.blocks[..k];
    } else if k == i + 1 {
      assert w.blocks[..k] == pre + [chosen];
      assert (pre + [chosen])[..i] == pre;
    } else {
      SplitAddrAfter(h, i, n, k);
    }
  }

  /** Blocks after the new free block: the chosen and free blocks together
      occupy exactly the bytes of the block that was split. */
  lemma SplitAddrAfter(h: Heap, i: nat, n: nat, k: nat)
    requires i + 1 < |h.blocks|
    requires Capacity(h.blocks[i]) >= n && Leftover(h.blocks[i], n) > HEADER
    requires i + 2 <= k <= |h.blocks| + 1
    ensures Addr(SplitAsWritten(h, i, n), k) == Addr(h, k - 1)
  {
    var w := SplitAsWritten(h, i, n);
    var b := h.blocks[i];
    var pre := h.blocks[..i];
    var chosen := w.blocks[i];
    var spare := w.blocks[i + 1];
    var mid := h.blocks[i + 1..k - 1];
    assert w.blocks == pre + [chosen, spare] + h.blocks[i + 1..];
    assert w.blocks[..k] == (pre + [chosen, spare]) + mid;
    assert h.blocks[..k - 1] == (pre + [b]) + mid;
    SpanAppend(pre + [chosen, spare], mid);
    SpanAppend(pre + [b], mid);
    assert (pre + [chosen, spare])[..i + 1] == pre + [chosen];
    assert (pre + [chosen])[..i] == pre;
    assert (pre + [b])[..i] == pre;
    assert Footprint(chosen) + Footprint(spare) == Footprint(b);
  }

  lemma SplitFacts(h: Heap, i: nat, n: nat)
    requires i + 1 < |h.blocks|
    requires Capacity(h.blocks[i]) >= n && Leftover(h.blocks[i], n) > HEADER
    ensures Span(SplitAsWritten(h, i, n).blocks) == Span(h.blocks)
    ensures Addr(SplitAsWritten(h, i, n), i + 1) == Addr(h, i) + HEADER + n
  {
    var w := SplitAsWritten(h, i, n);
    SplitAddr(h, i, n, |w.blocks|);
    SplitAddr(h, i, n, i + 1);
    assert w.blocks[..|w.blocks|] == w.blocks;
    assert h.blocks[..|h.blocks|] == h.blocks;
  }

  lemma SplitLinks(h: Heap, i: nat, n: nat)
    requires i + 1 < |h.blocks|
    requires Capacity(h.blocks[i]) >= n && Leftover(h.blocks[i], n) > HEADER
    ensures WellLinked(h) ==> WellLinked(Relinked(h, i, n))
  {
    var r := Relinked(h, i, n);
    forall k | 0 <= k < |r.blocks| && WellLinked(h)
      ensures LinkedAt(r, k)
    {
      SplitLinkedAt(h, i, n, k);
    }
  }

  /** Addresses in the corrected split heap: it has the same footprints as
      the one built as written. */
  lemma SplitAddrFixed(h: Heap, i: nat, n: nat, k: nat)
    requires i + 1 < |h.blocks|
    requires Capacity(h.blocks[i]) >= n && Leftover(h.blocks[i], n) > HEADER
    requires k <= |h.blocks| + 1
    ensures k <= i ==> Addr(Relinked(h, i, n), k) == Addr(h, k)
    ensures k == i + 1 ==> Addr(Relinked(h, i, n), k) == Addr(h, i) + HEADER + n
    ensures k >= i + 2 ==> Addr(Relinked(h, i, n), k) == Addr(h, k - 1)
  {
    PrefixAddr(SplitAsWritten(h, i, n), Relinked(h, i, n), k);
    SplitAddr(h, i, n, k);
  }

  lemma SplitLinkedAt(h: Heap, i: nat, n: nat, k: nat)
    requires i + 1 < |h.blocks|
    requires Capacity(h.blocks[i]) >= n && Leftover(h.blocks[i], n) > HEADER
    requires WellLinked(h)
    requires k < |h.blocks| + 1
    ensures LinkedAt(Relinked(h, i, n), k)
  {
    SplitPrevAt(h, i, n, k);
    SplitNextAt(h, i, n, k);
  }

  /** The `prev` half of the list invariant after a corrected split. */
  lemma SplitPrevAt(h: Heap, i: nat, n: nat, k: nat)
    requires i + 1 < |h.blocks|
    requires Capacity(h.blocks[i]) >= n && Leftover(h.blocks[i], n) > HEADER
    requires WellLinked(h)
    requires k < |h.blocks| + 1
    ensures Relinked(h, i, n).blocks[k].prev == if k == 0 then None else Some(Addr(Relinked(h, i, n), k - 1))
  {
    SplitBlockAt(h, i, n, k);
    if k > 0 { SplitAddrFixed(h, i, n, k - 1); }
    if k <= i {
      assert LinkedAt(h, k);
    } else if k == i + 1 {
      assert LinkedAt(h, i);
    } else if k > i + 2 {
      assert LinkedAt(h, k - 1);
    }
  }

  /** The `next` half of the list invariant after a corrected split. */
  lemma SplitNextAt(h: Heap, i: nat, n: nat, k: nat)
    requires i + 1 < |h.blocks|
    requires Capacity(h.blocks[i]) >= n && Leftover(h.blocks[i], n) > HEADER
    requires WellLinked(h)
    requires k < |h.blocks| + 1
    ensures Relinked(h, i, n).blocks[k].next == if k + 1 == |h.blocks| + 1 then None else Some(Addr(Relinked(h, i, n), k + 1))
  {
    SplitBlockAt(h, i, n, k);
    if k + 1 < |h.blocks| + 1 { SplitAddrFixed(h, i, n, k + 1); }
    if k < i {
      assert LinkedAt(h, k);
    } else if k == i + 1 {
      assert LinkedAt(h, i);
    } else if k >= i + 2 {
      assert LinkedAt(h, k - 1);
    }
  }

  /** The split as written leaves the old successor's `prev` pointing at the
      block that was split instead of at the new free block between them,
      so every split breaks the list invariant. */
  lemma SplitAsWrittenBreaksLinks(h: Heap, i: nat, n: nat)
    requires i + 1 < |h.blocks|
    requires Capacity(h.blocks[i]) >= n && Leftover(h.blocks[i], n) > HEADER
    requires WellLinked(h)
    ensures SplitAsWritten(h, i, n).blocks[i + 2].prev == Some(Addr(h, i))
    ensures !WellLinked(SplitAsWritten(h, i, n))
  {
    var w := SplitAsWritten(h, i, n);
    assert LinkedAt(h, i + 1);
    assert w.blocks[i + 2] == h.blocks[i + 1];
    SplitFacts(h, i, n);
    assert !LinkedAt(w, i + 2);
  }

  /** A concrete instance: a free 100-byte block followed by a used one;
      `mm_malloc(10)` splits the first, and the second still names it as
      its predecessor. */
  lemma SplitAsWrittenExample()
    ensures var h := Heap(0, [Block(100, 0, false, None, Some(140)), Block(8, 0, true, Some(0), None)]);
      WellLinked(h) && !WellLinked(SplitAsWritten(h, 0, 10)) && WellLinked(Split(h, 0, 10))
  {
    var h := Heap(0, [Block(100, 0, false, None, Some(140)), Block(8, 0, true, Some(0), None)]);
    assert h.blocks[..0] == [] && h.blocks[..1] == [h.blocks[0]];
    assert Addr(h, 1) == 140;
    assert LinkedAt(h, 0) && LinkedAt(h, 1);
    SplitAsWrittenBreaksLinks(h, 0, 10);
  }

  // ---------------------------------------------------------------------
  // Reuse without splitting

  /** Block `i` is handed out whole: its size becomes `n` and the rest of
      its capacity becomes slack, so its footprint is unchanged. */
  function Absorb(h: Heap, i: nat, n: nat): (r: Heap)
    requires i < |h.blocks| && Capacity(h.blocks[i]) >= n
    ensures r.base == h.base && |r.blocks| == |h.blocks|
    ensures r.blocks[i].used && r.blocks[i].size == n && r.blocks[i].extra == Leftover(h.blocks[i], n)
    ensures Capacity(r.blocks[i]) == Capacity(h.blocks[i])
    ensures forall k :: 0 <= k < |h.blocks| && k != i ==> r.blocks[k] == h.blocks[k]
    ensures Span(r.blocks) == Span(h.blocks)
    ensures forall k :: 0 <= k <= |h.blocks| ==> Addr(r, k) == Addr(h, k)
    ensures WellLinked(h) ==> WellLinked(r)
  {
    var b := h.blocks[i];
    var r := Heap(h.base, h.blocks[i := Block(n, Leftover(b, n), true, b.prev, b.next)]);
    AbsorbFacts(h, i, r);
    r
  }

  lemma AbsorbFacts(h: Heap, i: nat, r: Heap)
    requires i < |h.blocks| && r.base == h.base && |r.blocks| == |h.blocks|
    requires Footprint(r.blocks[i]) == Footprint(h.blocks[i])
    requires r.blocks[i].prev == h.blocks[i].prev && r.blocks[i].next == h.blocks[i].next
    requires forall k :: 0 <= k < |h.blocks| && k != i ==> r.blocks[k] == h.blocks[k]
    ensures forall k :: 0 <= k <= |h.blocks| ==> Addr(r, k) == Addr(h, k)
    ensures Span(r.blocks) == Span(h.blocks)
    ensures WellLinked(h) ==> WellLinked(r)
  {
    forall k | 0 <= k <= |h.blocks|
      ensures Addr(r, k) == Addr(h, k)
    {
      PrefixAddr(h, r, k);
    }
    assert r.blocks[..|r.blocks|] == r.blocks && h.blocks[..|h.blocks|] == h.blocks;
    PrefixAddr(h, r, |h.blocks|);
    forall k | 0 <= k < |r.blocks| && WellLinked(h)
      ensures LinkedAt(r, k)
    {
      assert LinkedAt(h, k);
    }
  }

  // ---------------------------------------------------------------------
  // mm_malloc

  /** Block `j` may be reused for `n` bytes: it is unused, can hold `n`, and
      is not the last block (the scan stops before `last_block`). */
  predicate Eligible(bs: seq<Block>, j: nat, n: nat)
  {
    j + 1 < |bs| && !bs[j].used && Capacity(bs[j]) >= n
  }

  predicate IsFirstFit(bs: seq<Block>, n: nat, i: nat)
  {
    Eligible(bs, i, n) && forall j :: 0 <= j < i ==> !Eligible(bs, j, n)
  }

  predicate NoFit(bs: seq<Block>, n: nat)
  {
    forall j :: 0 <= j < |bs| ==> !Eligible(bs, j, n)
  }

  /** The scan of `mm_malloc`: walk from `first_block` up to (not including)
      `last_block` and stop at the first unused block that can hold `n`. */
  method FirstFit(bs: seq<Block>, n: nat) returns (found: Option<nat>)
    ensures found.Some? ==> IsFirstFit(bs, n, found.value)
    ensures found.None? ==> NoFit(bs, n)
  {
    var k := 0;
    while k + 1 < |bs|
      invariant 0 <= k && (|bs| == 0 || k < |bs|)
      invariant forall j :: 0 <= j < k ==> !Eligible(bs, j, n)
    {
      if !bs[k].used && bs[k].size + bs[k].extra >= n {
        return Some(k);
      }
      k := k + 1;
    }
    return None;
  }

  /** `mm_malloc(n)` with the two corrections of the split and the push:
      it calls the corrected `Split` (the successor's `prev` is relinked)
      and the corrected `PushBlock` (a failed growth yields NULL). The code
      as written is `SplitAsWritten` and `PushBlockAsWritten`, and it keeps
      neither the NULL-on-failure promise nor the list invariant. Returns
      the new heap, the index of the block handed out (a model-level name
      for it) and the payload pointer, NULL being `None`. */
  method MmMalloc(h: Heap, n: nat, grows: bool) returns (h': Heap, block: Option<nat>, ptr: Option<nat>)
    ensures n == 0 ==> block.None?
    ensures block.None? <==> n == 0 || (NoFit(h.blocks, n) && !grows)
    ensures block.None? ==> h' == h && ptr.None?
    ensures block.Some? ==> block.value < |h'.blocks| && ptr == Some(PayloadAddr(h', block.value))
    ensures block.Some? ==> h'.blocks[block.value].used && h'.blocks[block.value].size == n
    ensures h'.base == h.base
    // Reuse: the first eligible block, bytes conserved, earlier blocks untouched.
    ensures block.Some? && block.value < |h.blocks| ==>
      && IsFirstFit(h.blocks, n, block.value)
      && Span(h'.blocks) == Span(h.blocks)
      && h'.blocks[..block.value] == h.blocks[..block.value]
    // Split when the leftover exceeds a header, otherwise absorb it as slack.
    ensures block.Some? && block.value < |h.blocks| && Leftover(h.blocks[block.value], n) > HEADER ==>
      && |h'.blocks| == |h.blocks| + 1
      && h'.blocks[block.value].extra == 0
      && !h'.blocks[block.value + 1].used
      && h'.blocks[block.value + 1].size == Leftover(h.blocks[block.value], n) - HEADER
      && (forall k :: block.value + 1 <= k < |h.blocks| ==> SamePayload(h'.blocks[k + 1], h.blocks[k]))
      && forall k :: block.value + 2 <= k < |h.blocks| ==> h'.blocks[k + 1] == h.blocks[k]
    ensures block.Some? && block.value < |h.blocks| && Leftover(h.blocks[block.value], n) <= HEADER ==>
      && |h'.blocks| == |h.blocks|
      && h'.blocks[block.value].extra == Leftover(h.blocks[block.value], n)
      && forall k :: 0 <= k < |h.blocks| && k != block.value ==> h'.blocks[k] == h.blocks[k]
    // Append: nothing fits, the heap grows by a header plus `n` bytes.
    ensures block.Some? && block.value >= |h.blocks| ==>
      && block.value == |h.blocks|
      && NoFit(h.blocks, n)
      && |h'.blocks| == |h.blocks| + 1
      && h'.blocks[block.value].extra == 0
      && Addr(h', block.value) == Top(h)
      && Span(h'.blocks) == Span(h.blocks) + HEADER + n
      && forall k :: 0 <= k < |h.blocks| ==> SamePayload(h'.blocks[k], h.blocks[k])
    ensures WellLinked(h) ==> WellLinked(h')
  {
    if n == 0 {
      return h, None, None;
    }
    var found := None;
    if |h.blocks| > 0 {
      found := FirstFit(h.blocks, n);
    }
    match found {
      case Some(i) =>
        if Leftover(h.blocks[i], n) > HEADER {
          h' := Split(h, i, n);
        } else {
          h' := Absorb(h, i, n);
        }
        block := Some(i);
        ptr := Some(PayloadAddr(h', i));
      case None =>
        var pushed := PushBlock(h, n, grows);
        if pushed.None? {
          return h, None, None;
        }
        h' := pushed.value;
        block := Some(|h.blocks|);
        ptr := Some(PayloadAddr(h', |h.blocks|));
    }
  }
}

=== FILE: common.dfy ===
/**
 Shared vocabulary for the whole model: optional values (the C code's
 NULL pointers), bytes, and concatenation of a list of strings.
 */
module Common {

  /** A value or its absence; stands for a pointer that may be NULL. */
  datatype Option<+T> = None | Some(value: T)

  /** One octet, as read from a file or a socket. */
  type Byte = x: int | 0 <= x < 256

  /** In-order concatenation of a list of sequences. */
  function Concat<T>(parts: seq<seq<T>>): seq<T>
  {
    if |parts| == 0 then [] else Concat(parts[..|parts| - 1]) + parts[|parts| - 1]
  }

  /** Sum of the lengths of a list of sequences. */
  function TotalLength<T>(parts: seq<seq<T>>): nat
  {
    if |parts| == 0 then 0 else TotalLength(parts[..|parts| - 1]) + |parts[|parts| - 1]|
  }

  /** The concatenation is exactly as long as all its parts together. */
  lemma {:induction false} ConcatLength<T>(parts: seq<seq<T>>)
    ensures |Concat(parts)| == TotalLength(parts)
  {
    if |parts| > 0 {
      ConcatLength(parts[..|parts| - 1]);
    }
  }

  /** Concatenation of sequences is associative. */
  lemma AppendAssoc<T>(x: seq<T>, y: seq<T>, z: seq<T>)
    ensures (x + y) + z == x + (y + z)
  {
  }

  /** Cutting a concatenation inside its first part. */
  lemma AppendSlices<T>(x: seq<T>, y: seq<T>, k: nat)
    requires k <= |x|
    ensures (x + y)[..k] == x[..k]
    ensures (x + y)[k..] == x[k..] + y
  {
  }

  /** Decimal rendering of a natural number, most significant digit first. */
  function Decimal(n: nat): (s: string)
    ensures |s| > 0
    ensures forall i :: 0 <= i < |s| ==> '0' <= s[i] <= '9'
  {
    if n < 10 then [DigitChar(n)] else Decimal(n / 10) + [DigitChar(n % 10)]
  }

  function DigitChar(d: nat): (c: char)
    requires d < 10
    ensures '0' <= c <= '9' && c as int - '0' as int == d
  {
    (d + '0' as int) as char
  }
}

=== FILE: file_server.dfy ===
/**
 The file-serving handler of the HTTP server (`handle_files_request` in
 hw2/httpserver.c) as a pure function from the request path and an
 abstract filesystem to the response the handler writes.

 The filesystem maps the exact path string handed to `stat` to what is
 there; a path absent from the map does not exist. Whether `open` or
 `opendir` succeeds is recorded per node. The MIME lookup of the HTTP
 library is a parameter.
 */
module FileServer {
  import opened Common
  import opened Http

  datatype Node =
    | Regular(content: seq<Byte>, openable: bool)
    | Dir(entries: seq<string>, openable: bool)
    | Other

  type FileSystem = map<string, Node>

  const INDEX_SUFFIX: string := "/index.html"
  const UNABLE_TO_OPEN: string := "<h1>Unable to open file.</h1>"
  const ALLOC_FAILED: string := "<center><h1>Error allocating memory for request.</h1></center>"
  const OPENDIR_FAILED: string := "<center><h1>Error opening directory.</h1></center>"
  const PARENT_LINK: string := "<a href=\"../\">Parent directory</a>"
  /** Size of the buffer the file is read through. */
  const CHUNK: nat := 1024

  /** The filesystem path a request path names: `/` is the document root
      itself, anything else is appended to the root verbatim (no
      normalisation, no confinement to the root). */
  function Resolve(root: string, path: string): (filename: string)
    ensures path == "/" ==> filename == root
    ensures path != "/" ==> |filename| == |root| + |path|
    ensures path != "/" ==> filename[..|root|] == root && filename[|root|..] == path
  {
    if path == "/" then root else root + path
  }

  /** The path probed for a directory's index page. */
  function IndexPath(dir: string): string
  {
    dir + INDEX_SUFFIX
  }

  function NotFoundFileBody(filename: string): string
  {
    "<center><h1>Error finding file: " + filename + ". File doesn't exist</h1></center>"
  }

  function NotFileOrDirBody(filename: string): string
  {
    "<center><h1>Error finding resource: " + filename + ". Not a file or directory</h1></center>"
  }

  /** The response for a file that `stat` found and the handler tries to
      open: its bytes with their length when it opens, otherwise a short
      HTML note whose Content-Length is the one `super_strcat` reports,
      i.e. the string length plus the terminating NUL (`UnableToOpenLength`
      ties it to the `length` ensures of `Http.SuperStrcat`). */
  function ServeFile(node: Node, contentType: string): (r: Response)
    ensures r.status == OK
    ensures node.Regular? && node.openable ==>
      r.headers == [ContentType(contentType), ContentLength(|node.content|)] && r.body == Bytes(node.content)
    ensures !(node.Regular? && node.openable) ==>
      r.headers == [ContentType(TEXT_HTML), ContentLength(|UNABLE_TO_OPEN| + 1)] && r.body == Text(UNABLE_TO_OPEN)
  {
    match node
    case Regular(content, true) =>
      Response(OK, [ContentType(contentType), ContentLength(|content|)], Bytes(content))
    case _ =>
      Response(OK, [ContentType(TEXT_HTML), ContentLength(|UNABLE_TO_OPEN| + 1)], Text(UNABLE_TO_OPEN))
  }

  /** `super_strcat(&len, 1, UNABLE_TO_OPEN)` yields the note itself and
      reports its length plus one, the Content-Length `ServeFile` sends. */
  lemma UnableToOpenLength()
    ensures Concat([UNABLE_TO_OPEN]) == UNABLE_TO_OPEN
    ensures TotalLength([UNABLE_TO_OPEN]) + 1 == |UNABLE_TO_OPEN| + 1
  {
  }

  predicate IsDotEntry(name: string)
  {
    name == "." || name == ".."
  }

  /** Directory entries that get a link, in directory order. */
  function Visible(entries: seq<string>): seq<string>
  {
    if |entries| == 0 then []
    else
      var last := entries[|entries| - 1];
      Visible(entries[..|entries| - 1]) + (if IsDotEntry(last) then [] else [last])
  }

  /** One listing line for entry `name`. */
  function Link(name: string): string
  {
    "<a href=\"" + name + "\">" + name + "</a><br>"
  }

  function Links(names: seq<string>): (s: string)
  {
    if |names| == 0 then [] else Links(names[..|names| - 1]) + Link(names[|names| - 1])
  }

  /** The generated index of a directory without `index.html`. */
  function Listing(entries: seq<string>): string
  {
    Links(Visible(entries)) + PARENT_LINK
  }

  /** `handle_files_request` for a parsed request with path `path`.
      `allocOk` says whether the `malloc` for the resolved name succeeds;
      `mime` is the library's extension-to-type lookup. */
  function HandleFiles(root: string, path: string, fs: FileSystem, mime: string -> string, allocOk: bool): (r: Response)
    // The name buffer could not be allocated.
    ensures path != "/" && !allocOk ==>
      r == Response(OK, [ContentType(TEXT_HTML)], Text(ALLOC_FAILED))
    // A regular file that opens: 200, its MIME type, its size, its bytes.
    ensures (path == "/" || allocOk) && Resolve(root, path) in fs && fs[Resolve(root, path)].Regular? && fs[Resolve(root, path)].openable ==>
      r == Response(OK, [ContentType(mime(Resolve(root, path))), ContentLength(|fs[Resolve(root, path)].content|)],
                    Bytes(fs[Resolve(root, path)].content))
    // A directory with an index page that opens: 200, text/html, the page.
    ensures (path == "/" || allocOk) && Resolve(root, path) in fs && fs[Resolve(root, path)].Dir?
            && IndexPath(Resolve(root, path)) in fs
            && fs[IndexPath(Resolve(root, path))].Regular? && fs[IndexPath(Resolve(root, path))].openable ==>
      r == Response(OK, [ContentType(TEXT_HTML), ContentLength(|fs[IndexPath(Resolve(root, path))].content|)],
                    Bytes(fs[IndexPath(Resolve(root, path))].content))
    // A regular file that does not open: 200 and the "Unable to open" note.
    ensures (path == "/" || allocOk) && Resolve(root, path) in fs && fs[Resolve(root, path)].Regular? && !fs[Resolve(root, path)].openable ==>
      r == Response(OK, [ContentType(TEXT_HTML), ContentLength(|UNABLE_TO_OPEN| + 1)], Text(UNABLE_TO_OPEN))
    // A directory whose index page exists but is not an openable regular
    // file: the same note.
    ensures (path == "/" || allocOk) && Resolve(root, path) in fs && fs[Resolve(root, path)].Dir?
            && IndexPath(Resolve(root, path)) in fs
            && !(fs[IndexPath(Resolve(root, path))].Regular? && fs[IndexPath(Resolve(root, path))].openable) ==>
      r == Response(OK, [ContentType(TEXT_HTML), ContentLength(|UNABLE_TO_OPEN| + 1)], Text(UNABLE_TO_OPEN))
    // A directory without an index page that opens: 200 and the listing.
    ensures (path == "/" || allocOk) && Resolve(root, path) in fs && fs[Resolve(root, path)].Dir?
            && IndexPath(Resolve(root, path)) !in fs && fs[Resolve(root, path)].openable ==>
      r == Response(OK, [ContentType(TEXT_HTML)], Text(Listing(fs[Resolve(root, path)].entries)))
    // A missing name: 404 and a note naming the file.
    ensures (path == "/" || allocOk) && Resolve(root, path) !in fs ==>
      r == Response(NOT_FOUND, [ContentType(TEXT_HTML)], Text(NotFoundFileBody(Resolve(root, path))))
    // Something that is neither file nor directory: 404 naming the resource.
    ensures (path == "/" || allocOk) && Resolve(root, path) in fs && fs[Resolve(root, path)].Other? ==>
      r == Response(NOT_FOUND, [ContentType(TEXT_HTML)], Text(NotFileOrDirBody(Resolve(root, path))))
    // An index-less directory that cannot be opened: 404 and the opendir note.
    ensures (path == "/" || allocOk) && Resolve(root, path) in fs && fs[Resolve(root, path)].Dir?
            && IndexPath(Resolve(root, path)) !in fs && !fs[Resolve(root, path)].openable ==>
      r == Response(NOT_FOUND, [ContentType(TEXT_HTML)], Text(OPENDIR_FAILED))
    // 404 exactly when the name is missing, is neither file nor directory,
    // or is an index-less directory that cannot be opened.
    ensures r.status == NOT_FOUND <==>
      (path == "/" || allocOk) &&
      (Resolve(root, path) !in fs || fs[Resolve(root, path)].Other?
       || (fs[Resolve(root, path)].Dir? && IndexPath(Resolve(root, path)) !in fs && !fs[Resolve(root, path)].openable))
    ensures r.status == OK || r.status == NOT_FOUND
    ensures r.status == NOT_FOUND ==> r.headers == [ContentType(TEXT_HTML)]
  {
    if path != "/" && !allocOk then
      Response(OK, [ContentType(TEXT_HTML)], Text(ALLOC_FAILED))
    else
      var filename := Resolve(root, path);
      if filename !in fs then
        Response(NOT_FOUND, [ContentType(TEXT_HTML)], Text(NotFoundFileBody(filename)))
      else
        match fs[filename]
        case Regular(_, _) => ServeFile(fs[filename], mime(filename))
        case Dir(entries, openable) =>
          if IndexPath(filename) in fs then
            ServeFile(fs[IndexPath(filename)], TEXT_HTML)
          else if openable then
            Response(OK, [ContentType(TEXT_HTML)], Text(Listing(entries)))
          else
            Response(NOT_FOUND, [ContentType(TEXT_HTML)], Text(OPENDIR_FAILED))
        case Other =>
          Response(NOT_FOUND, [ContentType(TEXT_HTML)], Text(NotFileOrDirBody(filename)))
  }

  /** An entry is listed exactly when it is in the directory and is not
      `.` or `..`. */
  lemma {:induction false} VisibleMembership(entries: seq<string>, name: string)
    ensures name in Visible(entries) <==> name in entries && !IsDotEntry(name)
  {
    if |entries| > 0 {
      VisibleMembership(entries[..|entries| - 1], name);
      assert entries == entries[..|entries| - 1] + [entries[|entries| - 1]];
    }
  }

  /** Listing a directory whose entries arrive in two batches lists the first
      batch's links before the second's: directory order is kept. */
  lemma {:induction false} VisibleAppend(a: seq<string>, b: seq<string>)
    ensures Visible(a + b) == Visible(a) + Visible(b)
  {
    if |b| == 0 {
      assert a + b == a;
    } else {
      assert (a + b)[..|a + b| - 1] == a + b[..|b| - 1];
      VisibleAppend(a, b[..|b| - 1]);
    }
  }

  lemma {:induction false} LinksAppend(a: seq<string>, b: seq<string>)
    ensures Links(a + b) == Links(a) + Links(b)
  {
    if |b| == 0 {
      assert a + b == a;
    } else {
      var ab := a + b;
      var init := b[..|b| - 1];
      var last := b[|b| - 1];
      assert ab[..|ab| - 1] == a + init;
      assert ab[|ab| - 1] == last;
      assert Links(ab) == Links(a + init) + Link(last);
      LinksAppend(a, init);
      assert Links(b) == Links(init) + Link(last);
      AppendAssoc(Links(a), Links(init), Link(last));
    }
  }

  /** The listing of a directory holding `entries` is one link per entry
      other than `.` and `..`, in order, then a single parent link at the
      end. Stated entry by entry: prepending an entry prepends its link
      (or nothing, for `.` and `..`). */
  lemma ListingCons(name: string, entries: seq<string>)
    ensures !IsDotEntry(name) ==> Listing([name] + entries) == Link(name) + Listing(entries)
    ensures IsDotEntry(name) ==> Listing([name] + entries) == Listing(entries)
  {
    VisibleAppend([name], entries);
    VisibleSingleton(name);
    if !IsDotEntry(name) {
      LinksAppend([name], Visible(entries));
      LinksSingleton(name);
    } else {
      assert Visible([name] + entries) == Visible(entries);
    }
  }

  lemma VisibleSingleton(name: string)
    ensures Visible([name]) == if IsDotEntry(name) then [] else [name]
  {
    assert [name][..0] == [];
  }

  lemma LinksSingleton(name: string)
    ensures Links([name]) == Link(name)
  {
    assert [name][..0] == [];
  }

  /** The `readdir` loop: emit a link for each entry except `.` and `..`,
      then the parent link. */
  method RenderListing(entries: seq<string>) returns (html: string)
    ensures html == Listing(entries)
    ensures |html| >= |PARENT_LINK| && html[|html| - |PARENT_LINK|..] == PARENT_LINK
  {
    html := "";
    var i := 0;
    while i < |entries|
      invariant 0 <= i <= |entries|
      invariant html == Links(Visible(entries[..i]))
    {
      var name := entries[i];
      assert entries[..i + 1] == entries[..i] + [name];
      VisibleAppend(entries[..i], [name]);
      VisibleSingleton(name);
      if name != "." && name != ".." {
        LinksAppend(Visible(entries[..i]), [name]);
        LinksSingleton(name);
        html := html + Link(name);
      } else {
        assert Visible(entries[..i + 1]) == Visible(entries[..i]);
      }
      i := i + 1;
    }
    assert entries[..i] == entries;
    html := html + PARENT_LINK;
  }

  /** The read loop for an opened file: read up to `CHUNK` bytes at a time
      and send each chunk, until a read returns 0. The client receives the
      file's bytes in order, in ceil(size / CHUNK) sends. */
  method SendFileChunks(content: seq<Byte>) returns (sent: seq<Byte>, sends: nat)
    ensures sent == content
    ensures sends == (|content| + CHUNK - 1) / CHUNK
  {
    sent := [];
    sends := 0;
    var offset := 0;
    while offset < |content|
      invariant 0 <= offset <= |content|
      invariant sent == content[..offset]
      invariant offset == |content| || offset == sends * CHUNK
      invariant sends == (offset + CHUNK - 1) / CHUNK
    {
      var readLen := if |content| - offset < CHUNK then |content| - offset else CHUNK;
      sent := sent + content[offset..offset + readLen];
      offset := offset + readLen;
      sends := sends + 1;
    }
  }
}

=== FILE: http.dfy ===
/**
 What the server writes back on a connection (hw2/httpserver.c), as an
 abstract event rather than bytes on a socket: a status code, the headers
 in the order they are sent, and the body. The framing itself belongs to
 the HTTP library and is not modelled. Also holds `super_strcat`, the
 string helper the handlers use.
 */
module Http {
  import opened Common

  /** Status codes the server emits: section 6.3.1 (200 OK), section 6.5.4
      (404 Not Found) and section 6.6.3 (502 Bad Gateway) of RFC 7231. */
  const OK: nat := 200
  const NOT_FOUND: nat := 404
  const BAD_GATEWAY: nat := 502

  const TEXT_HTML: string := "text/html"

  /** A response header. Field names are case-insensitive (section 3.2 of
      RFC 7230), so the two spellings of Content-Type used by the server are
      the same header here. Content-Length is sent as the decimal rendering
      of `n`. */
  datatype Header = ContentType(mime: string) | ContentLength(n: nat)

  /** A body is either raw file bytes or a string sent with its characters
      as bytes. */
  datatype Payload = Bytes(data: seq<Byte>) | Text(s: string)

  datatype Response = Response(status: nat, headers: seq<Header>, body: Payload)

  /** A C string: no embedded NUL, so `strlen` sees all of it. */
  predicate IsCString(s: string)
  {
    forall i :: 0 <= i < |s| ==> s[i] != '\0'
  }

  /** `super_strcat`: concatenate `strs` in order into a fresh string and
      report its length counting the terminating NUL. The C function copies
      its first argument unconditionally, so at least one is required. */
  method SuperStrcat(strs: seq<string>) returns (result: string, length: nat)
    requires |strs| >= 1
    requires forall k :: 0 <= k < |strs| ==> IsCString(strs[k])
    ensures result == Concat(strs)
    ensures length == TotalLength(strs) + 1
    ensures length == |result| + 1
  {
    // First pass: sum the lengths.
    var resultLen: nat := 0;
    var i := 0;
    while i < |strs|
      invariant 0 <= i <= |strs|
      invariant resultLen == TotalLength(strs[..i])
    {
      assert strs[..i + 1][..i] == strs[..i];
      resultLen := resultLen + |strs[i]|;
      i := i + 1;
    }
    assert strs[..|strs|] == strs;
    // Second pass: copy the first string, then append the others.
    assert strs[..1][..0] == [];
    result := strs[0];
    i := 1;
    while i < |strs|
      invariant 1 <= i <= |strs|
      invariant result == Concat(strs[..i])
    {
      assert strs[..i + 1][..i] == strs[..i];
      result := result + strs[i];
      i := i + 1;
    }
    length := resultLen + 1;
    ConcatLength(strs);
  }
}

=== FILE: mem_block.dfy ===
/**
 The heap layout of the first-fit allocator (hw3/mm_alloc.h): a run of
 blocks laid end to end from the heap's base, each a header followed by
 its payload and then some slack. Pointers are addresses (`nat`); the
 block list is the sequence of headers in address order, and the
 `prev`/`next` fields are kept explicitly so that the list invariant can
 be stated and checked.
 */
module MemBlock {
  import opened Common

  /** `sizeof(struct mem_block)` on an LP64 target: two `size_t`, a `bool`
      padded to 8 bytes, two pointers. */
  const HEADER: nat := 40

  /** `struct mem_block`. `size` is the payload handed out (header not
      included); `extra` is slack after the payload that belongs to this
      block but is not handed out; `prev`/`next` are the neighbours'
      addresses or NULL. */
  datatype Block = Block(size: nat, extra: nat, used: bool, prev: Option<nat>, next: Option<nat>)

  /** The heap: where the first block starts, and the blocks in address
      order (`first_block` is the head, `last_block` the tail). */
  datatype Heap = Heap(base: nat, blocks: seq<Block>)

  /** Bytes a block occupies: header, payload and slack. */
  function Footprint(b: Block): nat
  {
    HEADER + b.size + b.extra
  }

  /** Bytes occupied by a run of blocks. */
  function Span(bs: seq<Block>): nat
  {
    if |bs| == 0 then 0 else Span(bs[..|bs| - 1]) + Footprint(bs[|bs| - 1])
  }

  /** Address of block `k`'s header (for `k == |blocks|`, the heap top). */
  function Addr(h: Heap, k: nat): nat
    requires k <= |h.blocks|
  {
    h.base + Span(h.blocks[..k])
  }

  /** Address of block `k`'s payload: right after its header. */
  function PayloadAddr(h: Heap, k: nat): nat
    requires k < |h.blocks|
  {
    Addr(h, k) + HEADER
  }

  /** The heap top, `sbrk(0)` when the allocator owns the whole segment. */
  function Top(h: Heap): nat
  {
    h.base + Span(h.blocks)
  }

  /** Block `k`'s links point at its neighbours in address order; the first
      block has no `prev` and the last has no `next`. */
  predicate LinkedAt(h: Heap, k: nat)
    requires k < |h.blocks|
  {
    && h.blocks[k].prev == (if k == 0 then None else Some(Addr(h, k - 1)))
    && h.blocks[k].next == (if k + 1 == |h.blocks| then None else Some(Addr(h, k + 1)))
  }

  /** The doubly linked list invariant of the block list. */
  predicate WellLinked(h: Heap)
  {
    forall k :: 0 <= k < |h.blocks| ==> LinkedAt(h, k)
  }

  /** Bytes a block can hand out: its payload and its slack. */
  function Capacity(b: Block): nat
  {
    b.size + b.extra
  }

  lemma {:induction false} SpanAppend(a: seq<Block>, b: seq<Block>)
    ensures Span(a + b) == Span(a) + Span(b)
  {
    if |b| == 0 {
      assert a + b == a;
    } else {
      assert (a + b)[..|a + b| - 1] == a + b[..|b| - 1];
      SpanAppend(a, b[..|b| - 1]);
    }
  }

  /** Only the payload fields matter for the byte count, so two runs whose
      blocks pairwise agree on them occupy the same bytes. */
  lemma {:induction false} SpanSameFootprints(a: seq<Block>, b: seq<Block>)
    requires |a| == |b|
    requires forall k :: 0 <= k < |a| ==> Footprint(a[k]) == Footprint(b[k])
    ensures Span(a) == Span(b)
  {
    if |a| > 0 {
      SpanSameFootprints(a[..|a| - 1], b[..|b| - 1]);
    }
  }

  /** The layout is gap-free: a block's payload and slack end exactly where
      the next header (or the heap top) begins. */
  lemma BlockLayout(h: Heap, k: nat)
    requires k < |h.blocks|
    ensures PayloadAddr(h, k) + Capacity(h.blocks[k]) == Addr(h, k + 1)
    ensures Addr(h, k) < Addr(h, k + 1) <= Top(h)
  {
    assert h.blocks[..k + 1][..k] == h.blocks[..k];
    SpanAppend(h.blocks[..k + 1], h.blocks[k + 1..]);
    assert h.blocks[..k + 1] + h.blocks[k + 1..] == h.blocks;
  }
}

=== FILE: proxy.dfy ===
/**
 The proxy side of the HTTP server (hw2/httpserver.c): how `main` splits
 the `--proxy host[:port]` argument, and what `handle_proxy_request` does
 before relaying. Name resolution, socket creation and `connect` are
 outside the model; their outcomes are inputs.
 */
module Proxy {
  import opened Common
  import opened Http

  const DEFAULT_PORT: int := 80
  /** `ENXIO`, the process exit status when the upstream name does not resolve. */
  const ENXIO: int := 6
  const BAD_GATEWAY_BODY: string := "<center><h1>502 Bad Gateway</h1><hr></center>"

  /** `isspace` in the C locale. */
  predicate IsSpace(c: char)
  {
    c == ' ' || c == '\t' || c == '\n' || c == '\U{B}' || c == '\U{C}' || c == '\r'
  }

  predicate IsDigit(c: char)
  {
    '0' <= c <= '9'
  }

  /** Number of leading decimal digits of `s`. */
  function DigitRun(s: string): (n: nat)
    ensures n <= |s|
    ensures forall i :: 0 <= i < n ==> IsDigit(s[i])
    ensures n < |s| ==> !IsDigit(s[n])
  {
    if |s| == 0 || !IsDigit(s[0]) then 0 else 1 + DigitRun(s[1..])
  }

  /** Value of a string of decimal digits. */
  function DigitsValue(d: string): nat
    requires forall i :: 0 <= i < |d| ==> IsDigit(d[i])
  {
    if |d| == 0 then 0
    else
      var last := d[|d| - 1];
      assert IsDigit(last);
      DigitsValue(d[..|d| - 1]) * 10 + (last as int - '0' as int)
  }

  /** `atoi`: skip leading white space, read an optional sign, then as many
      decimal digits as follow; no digits gives 0. */
  function Atoi(s: string): int
  {
    if |s| > 0 && IsSpace(s[0]) then Atoi(s[1..])
    else if |s| > 0 && (s[0] == '-' || s[0] == '+') then
      var v: int := DigitsValue(s[1..][..DigitRun(s[1..])]);
      if s[0] == '-' then -v else v
    else DigitsValue(s[..DigitRun(s)])
  }

  /** Index of the first occurrence of `c` in `s`, if any (`strchr`). */
  function FindChar(s: string, c: char): (r: Option<nat>)
    ensures r.None? <==> c !in s
    ensures r.Some? ==> r.value < |s| && s[r.value] == c
    ensures r.Some? ==> forall j :: 0 <= j < r.value ==> s[j] != c
  {
    if |s| == 0 then None
    else if s[0] == c then Some(0)
    else match FindChar(s[1..], c)
      case None => None
      case Some(k) => Some(k + 1)
  }

  datatype Target = Target(host: string, port: int)

  /** The `--proxy` argument split in `main`: host before the first colon and
      the port parsed from after it, or the whole argument and port 80. */
  function ParseTarget(arg: string): (t: Target)
    ensures ':' !in arg ==> t == Target(arg, DEFAULT_PORT)
    ensures ':' in arg ==> ':' !in t.host && |t.host| < |arg| && arg[..|t.host|] == t.host && arg[|t.host|] == ':'
    ensures ':' in arg ==> t.port == Atoi(arg[|t.host| + 1..])
  {
    match FindChar(arg, ':')
    case None => Target(arg, DEFAULT_PORT)
    case Some(k) => Target(arg[..k], Atoi(arg[k + 1..]))
  }

  /** Reading back a rendered number gives the number. */
  lemma {:induction false} DigitsValueOfDecimal(n: nat)
    ensures forall i :: 0 <= i < |Decimal(n)| ==> IsDigit(Decimal(n)[i])
    ensures DigitsValue(Decimal(n)) == n
  {
    if n >= 10 {
      DigitsValueOfDecimal(n / 10);
      var d := Decimal(n);
      assert d[..|d| - 1] == Decimal(n / 10);
    }
  }

  lemma AtoiOfDecimal(n: nat)
    ensures Atoi(Decimal(n)) == n
  {
    var d := Decimal(n);
    DigitsValueOfDecimal(n);
    assert DigitRun(d) == |d|;
    assert d[..|d|] == d;
  }

  /** `host:port` written by an operator is split back into exactly that
      host and port, provided the host itself has no colon. */
  lemma TargetRoundTrip(host: string, port: nat)
    requires ':' !in host
    ensures ParseTarget(host + ":" + Decimal(port)) == Target(host, port)
  {
    var arg := host + ":" + Decimal(port);
    assert arg[|host|] == ':';
    assert ':' in arg;
    var t := ParseTarget(arg);
    // The first colon is the one after the host.
    assert |t.host| == |host| by {
      if |t.host| < |host| {
        assert false;
      } else if |t.host| > |host| {
        assert false;
      }
    }
    assert t.host == host;
    assert arg[|host| + 1..] == Decimal(port);
    AtoiOfDecimal(port);
  }

  /** What happens on one client connection in proxy mode. */
  datatype ProxyOutcome =
    | ProcessExit(code: int)    // the whole server exits with this status
    | Respond(response: Response)
    | Unanswered                // the relay is not written; the connection is just closed

  /** `handle_proxy_request`, given whether the socket could be created, whether
      the upstream name resolved and whether `connect` succeeded; `errno` is
      the error code of a failed `socket` call. */
  function HandleProxy(socketOk: bool, resolved: bool, connected: bool, errno: int): (o: ProxyOutcome)
    ensures o.Respond? <==> socketOk && resolved && !connected
    ensures o.Respond? ==> o.response == Response(BAD_GATEWAY, [ContentType(TEXT_HTML)], Text(BAD_GATEWAY_BODY))
    ensures o.ProcessExit? <==> !socketOk || !resolved
    ensures !socketOk ==> o == ProcessExit(errno)
    ensures socketOk && !resolved ==> o == ProcessExit(ENXIO)
  {
    if !socketOk then ProcessExit(errno)
    else if !resolved then ProcessExit(ENXIO)
    else if !connected then Respond(Response(BAD_GATEWAY, [ContentType(TEXT_HTML)], Text(BAD_GATEWAY_BODY)))
    else Unanswered
  }
}

=== FILE: shell.dfy ===
/**
 Command resolution in the shell (hw1/shell.c): finding a built-in,
 scanning a tokenised line for one `>` or `<` redirection, deriving the
 child's argument vector, and searching `$PATH` for the program. Which
 files exist is the `present` input (the shell's `access(..., F_OK)`);
 running built-ins and children is not modelled.
 */
module Shell {
  import opened Common

  /** The names of the built-in commands, in table order. */
  const CMD_TABLE: seq<string> := ["?", "exit", "pwd", "cd"]

  /** Index of the first entry of `table` at or after `i` named `cmd`. */
  function LookupFrom(table: seq<string>, cmd: string, i: nat): (r: int)
    requires i <= |table|
    ensures r == -1 || i <= r < |table|
    ensures r >= 0 ==> table[r] == cmd && forall j :: i <= j < r ==> table[j] != cmd
    ensures r == -1 <==> forall j :: i <= j < |table| ==> table[j] != cmd
    decreases |table| - i
  {
    if i == |table| then -1
    else if table[i] == cmd then i
    else LookupFrom(table, cmd, i + 1)
  }

  /** `lookup`: the index of the built-in named `cmd`, or -1 when there is
      none or the line had no first token (NULL). */
  function Lookup(cmd: Option<string>): (r: int)
    ensures -1 <= r < |CMD_TABLE|
    ensures r >= 0 ==> cmd.Some? && CMD_TABLE[r] == cmd.value
    ensures r >= 0 ==> forall j :: 0 <= j < r ==> CMD_TABLE[j] != cmd.value
    ensures r == -1 <==> cmd.None? || cmd.value !in CMD_TABLE
  {
    match cmd
    case None => -1
    case Some(c) => LookupFrom(CMD_TABLE, c, 0)
  }

  /** Each built-in is found at its own position. */
  lemma LookupBuiltins()
    ensures Lookup(Some("?")) == 0
    ensures Lookup(Some("exit")) == 1
    ensures Lookup(Some("pwd")) == 2
    ensures Lookup(Some("cd")) == 3
    ensures |CMD_TABLE| == 4
  {
  }

  predicate IsRedirectOp(t: string)
  {
    t == ">" || t == "<"
  }

  /** The one redirection the shell honours: the first `>` or `<` token, and
      the token after it as the file name if there is one. */
  datatype Redirect =
    | NoRedirect
    | RedirectOut(index: nat, file: Option<string>)
    | RedirectIn(index: nat, file: Option<string>)

  /** The scan over the tokens from position `i` on; it stops at the first
      operator. */
  function ScanRedirectFrom(tokens: seq<string>, i: nat): (r: Redirect)
    requires i <= |tokens|
    ensures r.NoRedirect? <==> forall j :: i <= j < |tokens| ==> !IsRedirectOp(tokens[j])
    ensures !r.NoRedirect? ==>
      && i <= r.index < |tokens|
      && (forall j :: i <= j < r.index ==> !IsRedirectOp(tokens[j]))
      && r.file == (if r.index + 1 < |tokens| then Some(tokens[r.index + 1]) else None)
    ensures r.RedirectOut? <==> !r.NoRedirect? && tokens[r.index] == ">"
    ensures r.RedirectIn? <==> !r.NoRedirect? && tokens[r.index] == "<"
    decreases |tokens| - i
  {
    if i == |tokens| then NoRedirect
    else
      var file := if i + 1 < |tokens| then Some(tokens[i + 1]) else None;
      if tokens[i] == ">" then RedirectOut(i, file)
      else if tokens[i] == "<" then RedirectIn(i, file)
      else ScanRedirectFrom(tokens, i + 1)
  }

  function ScanRedirect(tokens: seq<string>): Redirect
  {
    ScanRedirectFrom(tokens, 0)
  }

  /** The child's argc: everything before the operator when redirecting,
      otherwise every token. */
  function ChildArgc(tokens: seq<string>, r: Redirect): (argc: nat)
    requires r == ScanRedirect(tokens)
    ensures argc <= |tokens|
    ensures r.NoRedirect? ==> argc == |tokens|
    ensures !r.NoRedirect? ==> argc == r.index && tokens[argc] in {">", "<"}
  {
    if r.NoRedirect? then |tokens| else r.index
  }

  /** The child's argv: tokens `0..argc-1` then a NULL terminator. */
  function ChildArgv(tokens: seq<string>, r: Redirect): (argv: seq<Option<string>>)
    requires r == ScanRedirect(tokens)
    ensures |argv| == ChildArgc(tokens, r) + 1
    ensures forall i :: 0 <= i < |argv| - 1 ==> argv[i] == Some(tokens[i])
    ensures argv[|argv| - 1] == None
    ensures forall i :: 0 <= i < |argv| - 1 ==> !IsRedirectOp(tokens[i])
  {
    var argc := ChildArgc(tokens, r);
    seq(argc, i requires 0 <= i < argc => Some(tokens[i])) + [None]
  }

  // ---------------------------------------------------------------------
  // $PATH search

  /** Index of the first `:` in `s`, or `|s|`. */
  function FieldEnd(s: string): (k: nat)
    ensures k <= |s|
    ensures forall j :: 0 <= j < k ==> s[j] != ':'
    ensures k < |s| ==> s[k] == ':'
  {
    if |s| == 0 || s[0] == ':' then 0 else 1 + FieldEnd(s[1..])
  }

  /** The directories `strtok(path, ":")` yields: the colon-separated fields
      in order, with empty fields skipped. */
  function PathDirs(path: string): (dirs: seq<string>)
    ensures forall i :: 0 <= i < |dirs| ==> |dirs[i]| > 0 && ':' !in dirs[i]
    decreases |path|
  {
    if |path| == 0 then []
    else if path[0] == ':' then
      PathDirs(path[1..])
    else
      var k := FieldEnd(path);
      [path[..k]] + PathDirs(path[k..])
  }

  /** `dirs` written out as a `$PATH` value. */
  function JoinPath(dirs: seq<string>): string
  {
    if |dirs| == 0 then "" else if |dirs| == 1 then dirs[0] else dirs[0] + ":" + JoinPath(dirs[1..])
  }

  /** A colon splits `$PATH` in two: the directories of `a + ":" + b` are
      those of `a` followed by those of `b`. With `a` or `b` empty this says
      that leading, trailing and doubled colons contribute no directory. */
  lemma PathDirsAppend(a: string, b: string)
    ensures PathDirs(a + ":" + b) == PathDirs(a) + PathDirs(b)
  {
    AppendAssoc(a, ":", b);
    PathDirsColon(a, ":" + b);
  }

  /** `PathDirsAppend` with the colon-led suffix `t` kept as one piece. */
  lemma {:induction false} PathDirsColon(a: string, t: string)
    requires |t| > 0 && t[0] == ':'
    ensures PathDirs(a + t) == PathDirs(a) + PathDirs(t[1..])
    decreases |a|
  {
    var p := a + t;
    if |a| == 0 {
      assert p == t;
    } else if a[0] == ':' {
      AppendSlices(a, t, 1);
      PathDirsColon(a[1..], t);
    } else {
      var k := FieldEnd(a);
      FieldEndColon(a, t);
      AppendSlices(a, t, k);
      assert PathDirs(p) == [a[..k]] + PathDirs(a[k..] + t);
      if k == |a| {
        assert a[..k] == a && a[k..] == [];
        assert a[k..] + t == t;
      } else {
        PathDirsColon(a[k..], t);
      }
    }
  }

  /** A field ends at the first colon, so appending a colon-led suffix does
      not move the end of the first field. */
  lemma {:induction false} FieldEndColon(a: string, t: string)
    requires |t| > 0 && t[0] == ':'
    ensures FieldEnd(a + t) == FieldEnd(a)
  {
    if |a| == 0 {
      assert a + t == t;
    } else if a[0] != ':' {
      AppendSlices(a, t, 1);
      FieldEndColon(a[1..], t);
    }
  }

  /** A single non-empty directory with no colon is the whole `$PATH`. */
  lemma PathDirsSingle(d: string)
    requires |d| > 0 && ':' !in d
    ensures PathDirs(d) == [d]
  {
    assert d[0] != ':';
    assert FieldEnd(d) == |d|;
    assert d[..|d|] == d && d[|d|..] == [];
  }

  /** `strtok` yields no directory exactly when `$PATH` is nothing but
      colons (or empty). */
  lemma {:induction false} PathDirsEmpty(path: string)
    ensures PathDirs(path) == [] <==> forall j :: 0 <= j < |path| ==> path[j] == ':'
    decreases |path|
  {
    if |path| > 0 && path[0] == ':' {
      PathDirsEmpty(path[1..]);
      assert forall j :: 1 <= j < |path| ==> path[j] == path[1..][j - 1];
    }
  }

  /** Empty fields at either end are skipped. */
  lemma PathDirsSkipsEmpty(p: string)
    ensures PathDirs(":" + p) == PathDirs(p)
    ensures PathDirs(p + ":") == PathDirs(p)
  {
    PathDirsAppend("", p);
    assert "" + ":" + p == ":" + p;
    PathDirsAppend(p, "");
    assert p + ":" + "" == p + ":";
  }

  /** Splitting a `$PATH` built from non-empty, colon-free directories gives
      back exactly those directories in order. */
  lemma {:induction false} PathDirsJoin(dirs: seq<string>)
    requires forall i :: 0 <= i < |dirs| ==> |dirs[i]| > 0 && ':' !in dirs[i]
    ensures PathDirs(JoinPath(dirs)) == dirs
  {
    if |dirs| == 1 {
      PathDirsSingle(dirs[0]);
    } else if |dirs| > 1 {
      PathDirsJoin(dirs[1..]);
      PathDirsAppend(dirs[0], JoinPath(dirs[1..]));
      PathDirsSingle(dirs[0]);
      assert [dirs[0]] + dirs[1..] == dirs;
    }
  }

  /** The paths tried for `cmd`, one per `$PATH` directory, in order. */
  function Candidates(dirs: seq<string>, cmd: string): (cs: seq<string>)
    ensures |cs| == |dirs|
    ensures forall i :: 0 <= i < |cs| ==> cs[i] == dirs[i] + "/" + cmd
  {
    seq(|dirs|, i requires 0 <= i < |dirs| => dirs[i] + "/" + cmd)
  }

  /** The first of `cs` that exists. */
  function FirstExisting(cs: seq<string>, present: string -> bool): (r: Option<nat>)
    ensures r.Some? ==> r.value < |cs| && present(cs[r.value]) && forall j :: 0 <= j < r.value ==> !present(cs[j])
    ensures r.None? ==> forall j :: 0 <= j < |cs| ==> !present(cs[j])
  {
    if |cs| == 0 then None
    else if present(cs[0]) then Some(0)
    else match FirstExisting(cs[1..], present)
      case None => None
      case Some(k) => Some(k + 1)
  }

  /** `cs[i]` is the first of `cs` that exists. */
  predicate FirstPresentAt(cs: seq<string>, i: nat, present: string -> bool)
  {
    i < |cs| && present(cs[i]) && forall j :: 0 <= j < i ==> !present(cs[j])
  }

  /** The program the shell will try to run for `cmd`: `cmd` itself when it
      contains a slash; otherwise the first `dir/cmd` over the `$PATH`
      directories that exists, or `cmd` when none does. */
  function ResolveProgram(cmd: string, path: string, present: string -> bool): (program: string)
    ensures '/' in cmd ==> program == cmd
    ensures '/' !in cmd && program != cmd ==>
      exists i: nat :: FirstPresentAt(Candidates(PathDirs(path), cmd), i, present) && program == Candidates(PathDirs(path), cmd)[i]
    ensures '/' !in cmd && program == cmd ==>
      forall j :: 0 <= j < |PathDirs(path)| ==> !present(Candidates(PathDirs(path), cmd)[j])
  {
    if '/' in cmd then cmd
    else
      var cs := Candidates(PathDirs(path), cmd);
      match FirstExisting(cs, present)
      case Some(i) => assert FirstPresentAt(cs, i, present); cs[i]
      case None => cmd
  }

  // ---------------------------------------------------------------------
  // One input line

  datatype LineOutcome =
    | Blank
    | Builtin(index: nat)
    | NoSuchFile(program: string)
    | Spawn(program: string, argv: seq<Option<string>>, redirect: Redirect)
    | Crash

  /** Running an external command once its tokens are known to be non-empty
      and not a built-in. */
  function RunExternal(tokens: seq<string>, path: string, present: string -> bool): (o: LineOutcome)
    requires |tokens| > 0
    ensures o.NoSuchFile? || o.Spawn?
    ensures o.Spawn? ==> present(o.program) && o.program == ResolveProgram(tokens[0], path, present)
    ensures o.Spawn? ==> o.redirect == ScanRedirect(tokens) && o.argv == ChildArgv(tokens, o.redirect)
    ensures o.NoSuchFile? <==> !present(ResolveProgram(tokens[0], path, present))
    // The error names the command as typed.
    ensures o.NoSuchFile? ==> o.program == tokens[0]
  {
    var redirect := ScanRedirect(tokens);
    var program := ResolveProgram(tokens[0], path, present);
    if !present(program) then NoSuchFile(program)
    else Spawn(program, ChildArgv(tokens, redirect), redirect)
  }

  /** The main loop's handling of one line, as written. `path` is
      `getenv("PATH")`, `None` when the variable is unset. An empty line
      gives `lookup` a NULL first token, which it rejects, and the code then
      passes that NULL to `strchr`; a command that is not a built-in, with
      `PATH` unset, has `strlen` called on NULL. */
  function DispatchLineAsWritten(tokens: seq<string>, path: Option<string>, present: string -> bool): (o: LineOutcome)
    ensures |tokens| == 0 ==> o.Crash?
    ensures o.Crash? <==> |tokens| == 0 || (tokens[0] !in CMD_TABLE && path.None?)
    ensures o.Builtin? <==> |tokens| > 0 && tokens[0] in CMD_TABLE
    ensures o.Builtin? ==> |tokens| > 0 && o.index < |CMD_TABLE| && CMD_TABLE[o.index] == tokens[0]
    ensures |tokens| > 0 && tokens[0] !in CMD_TABLE && path.Some? ==> o == RunExternal(tokens, path.value, present)
  {
    var first := if |tokens| == 0 then None else Some(tokens[0]);
    var fundex := Lookup(first);
    if fundex >= 0 then Builtin(fundex)
    else if |tokens| == 0 then Crash
    else if path.None? then Crash
    else RunExternal(tokens, path.value, present)
  }

  /** The handling of one line with an empty line ignored and an unset
      `PATH` searched as if it named no directory, so that only a command
      given with a slash, or a file by that name in the working directory,
      can run. */
  function DispatchLine(tokens: seq<string>, path: Option<string>, present: string -> bool): (o: LineOutcome)
    ensures o.Blank? <==> |tokens| == 0
    ensures !o.Crash?
    ensures o.Builtin? <==> |tokens| > 0 && tokens[0] in CMD_TABLE
    ensures o.Builtin? ==> |tokens| > 0 && o.index < |CMD_TABLE| && CMD_TABLE[o.index] == tokens[0]
    ensures |tokens| > 0 && tokens[0] !in CMD_TABLE && path.Some? ==> o == RunExternal(tokens, path.value, present)
    ensures |tokens| > 0 && tokens[0] !in CMD_TABLE && path.None? ==> o == RunExternal(tokens, "", present)
    ensures |tokens| > 0 && path.Some? ==> o == DispatchLineAsWritten(tokens, path, present)
  {
    if |tokens| == 0 then Blank
    else
      var fundex := Lookup(Some(tokens[0]));
      if fundex >= 0 then Builtin(fundex)
      else RunExternal(tokens, if path.Some? then path.value else "", present)
  }

  /** The empty line: the code as written dereferences NULL; the intended
      behaviour is to do nothing. */
  lemma EmptyLineDiffers(path: Option<string>, present: string -> bool)
    ensures DispatchLineAsWritten([], path, present) == Crash
    ensures DispatchLine([], path, present) == Blank
  {
  }

  /** With `PATH` unset, every external command crashes the shell as
      written; intended, a command is looked up only as given. For `ls`
      with no file `ls` in the working directory the intended outcome is
      "No such file or directory". */
  lemma UnsetPathDiffers(tokens: seq<string>, present: string -> bool)
    requires |tokens| > 0 && tokens[0] !in CMD_TABLE
    ensures DispatchLineAsWritten(tokens, None, present) == Crash
    ensures DispatchLine(tokens, None, present).NoSuchFile? || DispatchLine(tokens, None, present).Spawn?
    ensures '/' !in tokens[0] ==> ResolveProgram(tokens[0], "", present) == tokens[0]
    ensures present(tokens[0]) <==> DispatchLine(tokens, None, present).Spawn?
  {
    if '/' !in tokens[0] {
      var cs := Candidates(PathDirs(""), tokens[0]);
      assert |cs| == 0;
    }
  }
}

=== FILE: word_count.dfy ===
/**
 The word-count utility (hw0/wc.c): a two-state scanner over the input
 bytes (inside a word or not) that counts newlines, words and bytes.
 Reading standard input or a file is replaced by the byte sequence read.
 */
module WordCount {
  import opened Common

  const NEWLINE: Byte := 10

  /** A byte that ends a word: `isspace` in the C locale (tab, newline,
      vertical tab, form feed, carriage return, space) or NUL. */
  predicate IsSeparator(b: Byte)
  {
    b == 0 || (9 <= b <= 13) || b == 32
  }

  datatype Counts = Counts(lines: nat, words: nat, chars: nat)

  /** The scanner's variables between two bytes. */
  datatype ScanState = ScanState(lines: nat, words: nat, chars: nat, inWord: bool)

  const START: ScanState := ScanState(0, 0, 0, false)

  /** One iteration of the read loop: a separator ends the current word (if
      any) and a newline counts a line; any other byte starts or continues
      a word; every byte counts as a character. */
  function Step(st: ScanState, b: Byte): ScanState
  {
    if IsSeparator(b) then
      ScanState(st.lines + (if b == NEWLINE then 1 else 0),
                st.words + (if st.inWord then 1 else 0),
                st.chars + 1,
                false)
    else
      ScanState(st.lines, st.words, st.chars + 1, true)
  }

  /** The read loop over all of `input`. */
  function Scan(input: seq<Byte>): ScanState
  {
    if |input| == 0 then START else Step(Scan(input[..|input| - 1]), input[|input| - 1])
  }

  /** After the loop, a word still open at end of input is counted. */
  function Finish(st: ScanState): Counts
  {
    Counts(st.lines, st.words + (if st.inWord then 1 else 0), st.chars)
  }

  /** Byte `i` begins a word: it is not a separator and either starts the
      input or follows a separator. */
  predicate StartsWord(s: seq<Byte>, i: nat)
    requires i < |s|
  {
    !IsSeparator(s[i]) && (i == 0 || IsSeparator(s[i - 1]))
  }

  /** Number of maximal runs of non-separator bytes, counted by their first
      byte. */
  function WordRuns(s: seq<Byte>): nat
  {
    if |s| == 0 then 0
    else WordRuns(s[..|s| - 1]) + (if StartsWord(s, |s| - 1) then 1 else 0)
  }

  /** What the scanner has seen after a prefix: the counters agree with the
      prefix, and the open word (if any) is the run the prefix ends in. */
  lemma {:induction false} ScanInvariant(input: seq<Byte>)
    ensures Scan(input).chars == |input|
    ensures Scan(input).lines == multiset(input)[NEWLINE]
    ensures Scan(input).inWord <==> |input| > 0 && !IsSeparator(input[|input| - 1])
    ensures Scan(input).words + (if Scan(input).inWord then 1 else 0) == WordRuns(input)
  {
    if |input| > 0 {
      var init := input[..|input| - 1];
      var b := input[|input| - 1];
      ScanInvariant(init);
      assert input == init + [b];
      assert multiset(input) == multiset(init) + multiset{b};
      if |init| > 0 {
        assert init[|init| - 1] == input[|input| - 2];
      }
    }
  }

  /** `wc` on one input: lines are the newline bytes, words the maximal runs
      of non-separator bytes (including one that runs to the end), chars all
      bytes. */
  function Wc(input: seq<Byte>): (c: Counts)
    ensures c.chars == |input|
    ensures c.lines == multiset(input)[NEWLINE]
    ensures c.words == WordRuns(input)
  {
    ScanInvariant(input);
    Finish(Scan(input))
  }

  lemma {:induction false} WordRunsAppend(a: seq<Byte>, b: seq<Byte>)
    requires |a| > 0 && IsSeparator(a[|a| - 1])
    ensures WordRuns(a + b) == WordRuns(a) + WordRuns(b)
  {
    if |b| == 0 {
      assert a + b == a;
    } else {
      var ab := a + b;
      assert ab[..|ab| - 1] == a + b[..|b| - 1];
      WordRunsAppend(a, b[..|b| - 1]);
      if |b| == 1 {
        assert StartsWord(ab, |ab| - 1) == StartsWord(b, 0);
      } else {
        assert ab[|ab| - 2] == b[|b| - 2];
        assert StartsWord(ab, |ab| - 1) == StartsWord(b, |b| - 1);
      }
    }
  }

  /** A separator byte, NUL included, splits words: the words on either side
      are counted separately and the separator adds none. */
  lemma SeparatorSplitsWords(a: seq<Byte>, sep: Byte, b: seq<Byte>)
    requires IsSeparator(sep)
    ensures Wc(a + [sep] + b).words == Wc(a).words + Wc(b).words
  {
    var a' := a + [sep];
    assert a' + b == a + [sep] + b;
    WordRunsAppend(a', b);
    assert a'[..|a'| - 1] == a;
  }

  /** The program's result: exit status, and the counts it prints. */
  datatype WcResult = WcResult(status: int, counts: Option<Counts>)

  /** `main` with `argc - 1` arguments: none reads standard input, one reads
      the named file, more is an error with status 1. Both branches count
      with the corrected loop `Wc`; the file branch as written is
      `WcFileAsWritten`. */
  function WcMain(argCount: nat, stdin: seq<Byte>, file: seq<Byte>): (r: WcResult)
    ensures argCount > 1 <==> r.status == 1
    ensures argCount > 1 <==> r.counts.None?
    ensures argCount == 0 ==> r == WcResult(0, Some(Wc(stdin)))
    ensures argCount == 1 ==> r == WcResult(0, Some(Wc(file)))
  {
    if argCount == 0 then WcResult(0, Some(Wc(stdin)))
    else if argCount == 1 then WcResult(0, Some(Wc(file)))
    else WcResult(1, None)
  }

  /** Where the file loop as written stops: it stores `getc`'s result in a
      `char`, so on a signed-char target the byte 0xFF reads as `EOF` and
      ends the loop early. */
  function EofPosition(file: seq<Byte>): (k: nat)
    ensures k <= |file|
    ensures forall j :: 0 <= j < k ==> file[j] != 0xFF
    ensures k < |file| ==> file[k] == 0xFF
  {
    if |file| == 0 || file[0] == 0xFF then 0 else 1 + EofPosition(file[1..])
  }

  /** The file branch as written: only the bytes before the first 0xFF are
      counted. */
  function WcFileAsWritten(file: seq<Byte>): (c: Counts)
    ensures c.chars <= |file|
    ensures c.chars < |file| ==> file[c.chars] == 0xFF
    ensures forall j :: 0 <= j < c.chars ==> file[j] != 0xFF
    // Lines and words are those of the bytes read before the stop.
    ensures c.lines == multiset(file[..c.chars])[NEWLINE]
    ensures c.words == WordRuns(file[..c.chars])
  {
    Wc(file[..EofPosition(file)])
  }

  /** The file branch as written agrees with the intended count exactly when
      the file has no 0xFF byte; for "a", 0xFF, "b" it reports one word and
      one character instead of one word and three characters. */
  lemma FileBranchStopsAtFF(file: seq<Byte>)
    ensures 0xFF !in file ==> WcFileAsWritten(file) == Wc(file)
    ensures 0xFF in file ==> WcFileAsWritten(file).chars < Wc(file).chars
    ensures WcFileAsWritten([97, 0xFF, 98]) == Counts(0, 1, 1)
    ensures Wc([97, 0xFF, 98]) == Counts(0, 1, 3)
  {
    if 0xFF !in file {
      assert file[..|file|] == file;
    }
    var x: seq<Byte> := [97, 0xFF, 98];
    assert x[..1] == [97];
    assert [97][..0] == [];
    assert x[..2] == [97, 0xFF];
    assert x[..3][..2] == x[..2];
    assert x[..2][..1] == [97];
    assert WordRuns([97]) == 1;
    assert WordRuns(x[..2]) == 1;
    assert WordRuns(x) == 1;
    assert multiset(x)[NEWLINE] == 0;
  }
}

=== FILE: work_queue.dfy ===
/**
 The server's work queue (hw2/wq.c): a FIFO of accepted client socket
 numbers. The mutex and condition variable are not modelled; each
 operation is one atomic step on an immutable queue value. `size` is kept
 as a separate field, as in the C struct, so that the model can state the
 invariant tying it to the contents.
 */
module WorkQueue {

  datatype Queue = Queue(items: seq<int>, size: int)

  /** The queue's counter agrees with its contents. */
  predicate Valid(q: Queue)
  {
    q.size == |q.items|
  }

  /** `wq_init`: the caller's queue becomes empty with size 0. */
  function Init(): (q: Queue)
    ensures q.items == [] && q.size == 0
    ensures Valid(q)
  {
    Queue([], 0)
  }

  /** `wq_push`: append one socket number at the tail. */
  function Push(q: Queue, fd: int): (r: Queue)
    ensures |r.items| == |q.items| + 1
    ensures r.items[..|q.items|] == q.items && r.items[|q.items|] == fd
    ensures r.size == q.size + 1
    ensures Valid(q) ==> Valid(r)
  {
    Queue(q.items + [fd], q.size + 1)
  }

  /** Outcome of one `wq_pop` step: either the caller keeps waiting
      (the queue was empty) or it takes the head item. */
  datatype PopStep = Wait | Take(fd: int, rest: Queue)

  /** `wq_pop`: on an empty queue the caller waits and nothing changes;
      otherwise the head leaves the queue and the rest keep their order. */
  function Pop(q: Queue): (r: PopStep)
    ensures r.Wait? <==> q.items == []
    ensures r.Take? ==> r.fd == q.items[0] && r.rest.items == q.items[1..]
    ensures r.Take? ==> r.rest.size == q.size - 1
    ensures r.Take? && Valid(q) ==> Valid(r.rest)
    ensures r.Take? ==> [r.fd] + r.rest.items == q.items
  {
    if q.items == [] then Wait else Take(q.items[0], Queue(q.items[1..], q.size - 1))
  }

  /** A single-threaded trace of queue operations. */
  datatype Op = PushOp(fd: int) | PopOp

  /** The socket numbers a trace pushes, in order. */
  function Pushed(ops: seq<Op>): seq<int>
  {
    if |ops| == 0 then []
    else Pushed(ops[..|ops| - 1]) + (if ops[|ops| - 1].PushOp? then [ops[|ops| - 1].fd] else [])
  }

  /** Run a trace from `q`; returns the final queue and the socket numbers
      handed out by the pops that did not wait, in the order handed out. */
  function Run(q: Queue, ops: seq<Op>): (Queue, seq<int>)
  {
    if |ops| == 0 then (q, [])
    else
      var (q', out) := Run(q, ops[..|ops| - 1]);
      match ops[|ops| - 1]
      case PushOp(fd) => (Push(q', fd), out)
      case PopOp =>
        match Pop(q')
        case Wait => (q', out)
        case Take(fd, rest) => (rest, out + [fd])
  }

  /** Nothing is lost, duplicated or invented: what was handed out followed
      by what is still queued is exactly what was queued before followed by
      everything pushed, in push order; and the counter stays consistent. */
  lemma {:induction false} RunConserves(q: Queue, ops: seq<Op>)
    requires Valid(q)
    ensures Run(q, ops).1 + Run(q, ops).0.items == q.items + Pushed(ops)
    ensures Valid(Run(q, ops).0)
  {
    if |ops| > 0 {
      RunConserves(q, ops[..|ops| - 1]);
      RunStep(q, ops);
    }
  }

  /** The last step of a trace keeps the conservation law and the counter
      that the trace before it kept. */
  lemma RunStep(q: Queue, ops: seq<Op>)
    requires |ops| > 0
    requires Run(q, ops[..|ops| - 1]).1 + Run(q, ops[..|ops| - 1]).0.items == q.items + Pushed(ops[..|ops| - 1])
    requires Valid(Run(q, ops[..|ops| - 1]).0)
    ensures Run(q, ops).1 + Run(q, ops).0.items == q.items + Pushed(ops)
    ensures Valid(Run(q, ops).0)
  {
    var init := ops[..|ops| - 1];
    var (q', out) := Run(q, init);
    match ops[|ops| - 1]
    case PushOp(fd) =>
      assert out + (q'.items + [fd]) == (out + q'.items) + [fd];
    case PopOp =>
      match Pop(q')
      case Wait =>
      case Take(fd, rest) =>
        assert (out + [fd]) + rest.items == out + ([fd] + rest.items);
  }

  /** Push `xs` one by one. */
  function PushAll(q: Queue, xs: seq<int>): (r: Queue)
    ensures r.items == q.items + xs
    ensures r.size == q.size + |xs|
  {
    if |xs| == 0 then q else Push(PushAll(q, xs[..|xs| - 1]), xs[|xs| - 1])
  }

  /** Pop `n` times (waiting steps hand out nothing). */
  function PopN(q: Queue, n: nat): (Queue, seq<int>)
    decreases n
  {
    if n == 0 then (q, [])
    else
      match Pop(q)
      case Wait => (q, [])
      case Take(fd, rest) =>
        var (q', out) := PopN(rest, n - 1);
        (q', [fd] + out)
  }

  /** Popping `n` times from a queue holding at least `n` items hands out
      the first `n` in order and leaves the rest. */
  lemma {:induction false} PopNTakesPrefix(q: Queue, n: nat)
    requires n <= |q.items|
    ensures PopN(q, n).1 == q.items[..n]
    ensures PopN(q, n).0.items == q.items[n..]
    decreases n
  {
    if n > 0 {
      var rest := Queue(q.items[1..], q.size - 1);
      PopNTakesPrefix(rest, n - 1);
      assert q.items[..n] == [q.items[0]] + q.items[1..][..n - 1];
      assert q.items[n..] == q.items[1..][n - 1..];
    }
  }

  /** Pushing x1..xn onto a fresh queue and then popping n times yields
      x1..xn in order, each exactly once, and leaves the queue empty. */
  lemma {:induction false} PushThenPopFifo(xs: seq<int>)
    ensures PopN(PushAll(Init(), xs), |xs|).1 == xs
    ensures PopN(PushAll(Init(), xs), |xs|).0.items == []
    ensures Valid(PopN(PushAll(Init(), xs), |xs|).0)
  {
    var q := PushAll(Init(), xs);
    assert q.items == xs;
    assert Valid(q);
    PopNTakesPrefix(q, |xs|);
    PopNValid(q, |xs|);
    assert q.items[..|xs|] == xs;
  }

  lemma {:induction false} PopNValid(q: Queue, n: nat)
    requires Valid(q)
    ensures Valid(PopN(q, n).0)
    decreases n
  {
    if n > 0 {
      match Pop(q)
      case Wait =>
      case Take(fd, rest) => PopNValid(rest, n - 1);
    }
  }
}
